=== FILE: README.md ===
# App controller: a Dafny model

This project models the decision logic of a Kubernetes operator built with
kubebuilder. The operator manages the `App` custom resource, which bundles a
container image and replica count with a service and an ingress
configuration. Its controller turns an `App` into child objects: a
Deployment, a HorizontalPodAutoscaler, a Service and an Ingress. It mirrors
each child's observed state into the App's `status`. An admission webhook
defaults and validates Apps.

The model covers:

- the App datatypes and the bounds the schema puts on them (`AppTypes`);
- child naming (`Base`);
- a Kubernetes client reduced to typed stores with injected faults (`Kube`, `Client`);
- the four per-kind reconcilers (`DeploymentReconciler`, `HpaReconciler`, `ServiceReconciler`, `IngressReconciler`);
- the top-level `Reconcile` (`Controller`);
- the watch filters (`Events`);
- the defaulting and validating webhooks (`Webhook`), and what admission implies for the ingress reconciler (`Admitted`).

How the cluster and its faults are represented:

- Every step of the controller that can fail is given its outcome as an explicit parameter: a `Faults` record per reconciler and an `Oracle` per reconcile say which steps fail and with which error. There is one slot per such step: setting the controller reference (a local edit of the child's metadata, which fails only on an ownership conflict or a scope mismatch), the Get, the single child write, and the single status write.
- The cluster is a record of one map per kind (`Cluster`).
- A child object is `Obj(controller, spec, status)`. Its spec and status are opaque types compared with `==`.
- `reflect.DeepEqual` is modelled by `Kube.DeepEqual` over a tagged union of all eight payload types. Values of different Go types are therefore never deeply equal, as in Go.
- The template renderers in `internal/utils` are a `Builder` of functions from the App's identity and spec to a child template. Their bodies are outside this model.
- Every reconciler returns a `Step`: the App as left in memory, the cluster, the ordered log of writes issued (a failed one included), and the `(ctrl.Result, error)` pair.
- A write that succeeds has the effect given by `Client.Perform`:
  - create fails with AlreadyExists on a present key;
  - update and delete fail with NotFound on a missing key;
  - update keeps the live status, as the status subresource does;
  - the client writes the server's reply back into the object it was given, so after an update the template object holds the status the server kept (this matters only where the code reads that object again, in the autoscaler reconciler);
  - a status update changes only the App's `status`.

Behaviours of the code that the model keeps as they are, each proved as a lemma:

- The autoscaler reconciler decides whether to write the App status by comparing the live status with the status held by the template object, not with the App's mirror. When the spec was kept, that is the rendered template's status (`HpaQuietWhileMirrorStale`, `HpaStatusWriteRepeats`). When the spec was just updated, it is the status the update returned, which is the live one, so a pass that updates the spec never writes the App status (`HpaReconciler.SyncHpaStatusStep`).
- The service reconciler copies the service spec into the App only after overwriting a drifted spec. The value it copies is the spec read *before* the overwrite (`ServiceMirrorLags`).
- The ingress reconciler compares an `IngressStatus` with an `IngressSpec`. These never compare equal, so every pass over a wanted ingress writes the App status, and the value written is the live ingress spec (`IngressStatusNeverEqualsSpec`, `IngressStatusWriteRepeats`).
- The validator refuses every App with the ingress enabled, whether or not a node port is set. An admitted App therefore never wants an ingress, and the ingress reconciler can only delete one (`Admitted.AdmittedAppIngressOnlyRemoved`).

Further behaviours of the code worth knowing:

- `Reconcile` runs only the deployment and autoscaler reconcilers. The service call is commented out (`internal/controller/app_controller.go:105`) and the ingress reconciler is never called. A fresh App therefore gets a deployment and an autoscaler only (`Controller.FreshAppGetsDeploymentAndHpa`), not four children.
- The App watch filter lets an update through only when the deployment part of the spec changed. Edits to the service or ingress settings alone do not trigger a reconcile (`Events.ServiceAndIngressEditsDropped`).
- The filters on owned children drop status-only updates (`Events.ChildStatusOnlyUpdateDropped`). A change of a child's status therefore reaches the App's mirror only when some other event triggers a reconcile.
- When an ingress exists but the App does not want one, it is deleted. This includes an App that enables the ingress and also sets a node port. The "service takes effect" branch returns without doing anything only when no ingress exists.

## Model

| member | source | states |
|---|---|---|
| AppTypes.DecodeSpec | api/v1/app_types.go:30-68 | The schema admits a spec exactly when `deployment`, `image`, `replace` and `service` are present, `replace` is at most 8, and `nodePort` is absent or within [30000, 37000]. An admitted spec satisfies `ValidSpec`. Every field sent (`image`, `replace`, `port`, `nodePort`, `isEnable`, `host`, `path`) is carried as sent, every optional field omitted becomes its Go zero value, and an omitted spec is the zero spec. |
| AppTypes.DecodeEncodeRoundTrip | api/v1/app_types.go:30-68 | A spec survives JSON encoding (with `omitempty`) and schema admission unchanged if and only if it lies within the schema's bounds. |
| Base.GetNamespacedName | internal/controller/base.go:7-12 | A child's name is the parent's name followed by the suffix, in the parent's namespace. |
| Base.GetNamespacedNameInjective | internal/controller/base.go:7-12 | For one suffix, two children share an identity if and only if their parents share name and namespace. |
| Base.ChildKindsNeverCollide | internal/controller/base.go:7-12 | Children of two different kinds never share an identity, whatever the parents are called: `-deploy`, `-svc`, `-ingress` and `-hpa` end in different characters. |
| Client.PersistStatus | internal/controller/deployment.go:50-54 | A status write changes only the App store, and only that App's status. It succeeds exactly when no fault is injected and the App is stored. On failure the cluster is unchanged and the result is the generic requeue. |
| Client.PerformFrame | internal/controller/deployment.go:37 | A write to one kind leaves the stores of every other kind unchanged. |
| Client.ReplayAppend | internal/controller/app_controller.go:93-103 | Replaying a log in two halves is the same as replaying it whole. This is how the two reconcilers' logs compose. |
| Client.PerformKeepsAppSpecs | internal/controller/deployment.go:50 | No write the controller can issue adds, removes or edits an App except through its status. |
| Client.ReplayKeepsAppSpecs | internal/controller/app_controller.go:93-103 | Replaying any log of controller writes keeps every App's metadata and spec. |
| DeploymentReconciler.MirrorDeploymentStatus | internal/controller/deployment.go:46-57 | The mirror takes the live status. A status write is issued exactly when the live status differs from the mirror. |
| DeploymentReconciler.SyncDeployment | internal/controller/deployment.go:27-59 | An existing deployment is updated exactly when its spec differs from the template. A successful pass leaves the template's spec in place. The live status is never changed through the main resource. |
| DeploymentReconciler.SyncDeploymentUpdateFails | internal/controller/deployment.go:37-41 | A failed update returns the error and the generic requeue before the App status is touched. |
| DeploymentReconciler.SyncDeploymentMirrorsStatus | internal/controller/deployment.go:46-57 | Once the spec is settled, the App's deployment mirror holds the live status, and a status write is last in the log exactly when the two differed. |
| DeploymentReconciler.ReconcileDeployment | internal/controller/deployment.go:15-74 | The result is the generic requeue exactly when an error is returned. At most two writes are issued. A failure to set the controller returns at once. A pass without error leaves the template's spec in place. |
| DeploymentReconciler.DeploymentGetFails | internal/controller/deployment.go:61-64 | A Get error other than NotFound is returned with nothing written. |
| DeploymentReconciler.DeploymentMissing | internal/controller/deployment.go:67-73 | A missing deployment is created once from the template, and the App status is not written. |
| DeploymentReconciler.DeploymentFound | internal/controller/deployment.go:25-27 | An existing deployment goes through the update-and-mirror branch. |
| DeploymentReconciler.DeploymentFrame | internal/controller/deployment.go:15-74 | The pass writes only deployments and this App's status. Every written child has the App as controller. Other kinds are untouched, and of the App only `status.deploymentStatus` can change. |
| DeploymentReconciler.DeploymentIdempotent | internal/controller/deployment.go:30-58 | With the spec converged and the status mirrored, a pass whose owner and Get steps succeed writes nothing and succeeds. |
| DeploymentReconciler.DeploymentLogAccountsFor | internal/controller/deployment.go:15-74 | The cluster a pass leaves is its write log replayed: the whole log on success, all but the failed last write on error. |
| DeploymentReconciler.DeploymentSettles | internal/controller/deployment.go:27-58 | After a pass that found the deployment and succeeded, the next pass whose owner and Get steps succeed writes nothing. |
| DeploymentReconciler.DeploymentSpecSettledOnlyMirrors | internal/controller/deployment.go:30-58 | With the spec converged, a pass whose owner and Get steps succeed leaves every child object alone and writes the App status exactly when the live status differs from the mirror. |
| DeploymentReconciler.DeploymentConverges | internal/controller/deployment.go:15-74 | From any cluster, after two passes without error, the second of which had its owner and Get steps succeed, a third pass whose owner and Get steps succeed writes nothing. |
| HpaReconciler.MirrorHpaStatus | internal/controller/horizontalPodAutoscaler.go:56-64 | The status step compares the live status with the status the template object holds at that point. When they are equal nothing is written; when they differ, the live status is copied into the mirror and persisted, and only the App store can change. |
| HpaReconciler.SyncHpa | internal/controller/horizontalPodAutoscaler.go:29-66 | An existing autoscaler is updated exactly when its spec differs from the template, and then the update is the only write and the App is untouched. At most one write is issued. A successful pass leaves the template's spec in place. The live status is unchanged. |
| HpaReconciler.SyncHpaUpdateFails | internal/controller/horizontalPodAutoscaler.go:48-52 | A failed update returns the error before any status write. |
| HpaReconciler.SyncHpaStatusStep | internal/controller/horizontalPodAutoscaler.go:46-65 | Branch by branch. Spec kept: a status write happens exactly when the live status differs from the template's status, the App's own mirror plays no part, the mirror receives the live status, and a failed status write is returned with the generic requeue. Spec updated successfully: the status returned by the update is the live one, so the pass succeeds after the update alone, whatever the statuses hold. |
| HpaReconciler.ReconcileHpa | internal/controller/horizontalPodAutoscaler.go:16-86 | The result is the generic requeue exactly when an error is returned. At most one write is issued. A failure to set the controller returns at once. A pass without error leaves the template's spec in place. |
| HpaReconciler.HpaGetFails | internal/controller/horizontalPodAutoscaler.go:72-75 | A Get error other than NotFound is returned with nothing written. |
| HpaReconciler.HpaMissing | internal/controller/horizontalPodAutoscaler.go:79-84 | A missing autoscaler is created once from the template, and the App status is not written. |
| HpaReconciler.HpaFound | internal/controller/horizontalPodAutoscaler.go:26-29 | An existing autoscaler goes through the update-and-status branch. |
| HpaReconciler.HpaFrame | internal/controller/horizontalPodAutoscaler.go:16-86 | The pass writes only autoscalers and this App's status, with the App as controller. Other kinds are untouched, and of the App only the autoscaler mirror can change. |
| HpaReconciler.HpaQuietWhileMirrorStale | internal/controller/horizontalPodAutoscaler.go:56 | With the spec converged and the live status equal to the template's, a pass whose owner and Get steps succeed writes nothing, even when the App's mirror is stale. |
| HpaReconciler.HpaStatusWriteRepeats | internal/controller/horizontalPodAutoscaler.go:56-64 | With the spec converged and the live status differing from the template's, two consecutive fault-free passes each write the App status, and nothing else. A pass that updates a drifted spec writes no status (see `HpaReconciler.SyncHpaStatusStep`). |
| HpaReconciler.HpaSpecSettledOnlyMirrors | internal/controller/horizontalPodAutoscaler.go:46-65 | With the spec converged, a pass whose owner and Get steps succeed leaves every child object alone and writes the App status exactly when the live status differs from the template's. |
| HpaReconciler.HpaLogAccountsFor | internal/controller/horizontalPodAutoscaler.go:16-86 | The cluster a pass leaves is its write log replayed: the whole log on success, all but the failed last write on error. |
| ServiceReconciler.SyncService | internal/controller/service.go:25-50 | A service whose spec matches is left alone, and the pass succeeds with no writes. A drifted spec is overwritten. A failed overwrite returns at once. After a successful overwrite the mirror receives the spec read before the overwrite, and that status is persisted. |
| ServiceReconciler.ReconcileService | internal/controller/service.go:15-62 | The result is the generic requeue exactly when an error is returned. At most two writes are issued, and none is a delete. A pass without error leaves the template's spec in place. |
| ServiceReconciler.ServiceGetFails | internal/controller/service.go:51-54 | A Get error other than NotFound is returned with nothing written. |
| ServiceReconciler.ServiceMissing | internal/controller/service.go:56-61 | A missing service is created once from the template, and the App status is not written. |
| ServiceReconciler.ServiceFound | internal/controller/service.go:24-25 | An existing service goes through the overwrite-and-mirror branch. |
| ServiceReconciler.ServiceFrame | internal/controller/service.go:15-62 | The pass writes only services and this App's status, with the App as controller. Other kinds are untouched, and of the App only the service mirror can change. |
| ServiceReconciler.ServiceMirrorLags | internal/controller/service.go:27-47 | After a pass that overwrote a drifted spec, the App's stored mirror holds the old spec, which differs from the spec the service now has. |
| ServiceReconciler.ServiceIdempotent | internal/controller/service.go:27 | Once the spec is converged, a pass whose owner and Get steps succeed writes nothing, whatever the mirror holds. |
| ServiceReconciler.ServiceLogAccountsFor | internal/controller/service.go:15-62 | The cluster a pass leaves is its write log replayed. |
| IngressReconciler.IngressWanted | internal/controller/ingress.go:33 | The condition under which an ingress is kept or created: the ingress is enabled and no node port is set (also tested at `internal/controller/ingress.go:72`). |
| IngressReconciler.IngressStatusNeverEqualsSpec | internal/controller/ingress.go:43 | An ingress status is never deeply equal to an ingress spec. |
| IngressReconciler.MirrorIngress | internal/controller/ingress.go:43-52 | The status step always fires: the mirror receives the live ingress spec and a status write is issued. |
| IngressReconciler.SyncIngress | internal/controller/ingress.go:27-63 | An existing ingress the App does not want is deleted, with nothing else written. For a wanted ingress: it is updated exactly when its spec differs from the template, no delete is issued, and a pass without error leaves the template's spec in place. |
| IngressReconciler.SyncIngressUpdateFails | internal/controller/ingress.go:34-39 | A failed update of a wanted ingress returns the error and the generic requeue before the App status is touched. |
| IngressReconciler.SyncIngressMirrorsSpec | internal/controller/ingress.go:43-52 | Once the spec of a wanted ingress is settled, the mirror holds the live ingress spec and a status write is last in the log, on every pass. |
| IngressReconciler.ReconcileIngress | internal/controller/ingress.go:15-91 | The result is the generic requeue exactly when an error is returned. An ingress is created or updated only when the App enables it and sets no node port. After a pass whose Get and writes succeed, the ingress exists exactly when the App wants one. |
| IngressReconciler.IngressGetFails | internal/controller/ingress.go:65-68 | A Get error other than NotFound is returned with nothing written. |
| IngressReconciler.IngressMissing | internal/controller/ingress.go:72-88 | A missing ingress is created once when wanted. Otherwise the pass writes nothing and succeeds, whether the ingress is disabled or enabled together with a node port. |
| IngressReconciler.IngressFound | internal/controller/ingress.go:25-27 | An existing ingress goes through the update-or-delete branch. |
| IngressReconciler.IngressFrame | internal/controller/ingress.go:15-91 | The pass writes only ingresses and this App's status, with the App as controller. Other kinds are untouched, and of the App only the ingress mirror can change. |
| IngressReconciler.IngressStatusWriteRepeats | internal/controller/ingress.go:43-52 | For a wanted ingress whose spec matches, two consecutive fault-free passes each write the App status. |
| IngressReconciler.IngressLogAccountsFor | internal/controller/ingress.go:15-91 | The cluster a pass leaves is its write log replayed. |
| Controller.FetchApp | internal/controller/app_controller.go:78-79 | The fetch returns the stored App when nothing fails, and NotFound when no App is stored under the request. |
| Controller.Reconcile | internal/controller/app_controller.go:68-109 | A deleted App ends the request quietly. Any other fetch error is returned with a one-minute requeue. Otherwise the result is the generic requeue exactly when an error is returned. At most three writes are issued. |
| Controller.ReconcileSteps | internal/controller/app_controller.go:93-103 | For a fetched App: when the deployment step fails, its cluster, log and error are the reconcile's, with the generic requeue; otherwise the autoscaler step runs on the App the first step left, and the logs are concatenated. |
| Controller.DeploymentFailureStopsReconcile | internal/controller/app_controller.go:93-97 | A failing deployment step ends the reconcile with its error and the generic requeue; no autoscaler is written or changed. |
| Controller.ReconcileLeavesServicesAndIngresses | internal/controller/app_controller.go:93-105 | A reconcile never writes or changes a service or an ingress. |
| Controller.ReconcileOrdersWrites | internal/controller/app_controller.go:93-103 | No autoscaler write precedes a deployment write. |
| Controller.ReconcileLogAccountsFor | internal/controller/app_controller.go:68-109 | The cluster a reconcile leaves is its write log replayed: all of it on success, all of it or all but the failed last write on error. |
| Controller.ReconcileKeepsAppSpecs | internal/controller/app_controller.go:68-109 | A reconcile never creates, deletes or edits an App other than through its status. |
| Controller.ReconcileConverges | internal/controller/app_controller.go:93-108 | A reconcile without error leaves the template's deployment spec and the template's autoscaler spec in place. |
| Controller.ReconcileIdempotent | internal/controller/app_controller.go:93-108 | With the deployment converged and mirrored, and the autoscaler converged in spec and status, a reconcile whose App fetch, owner and Get steps succeed writes nothing and succeeds. |
| Controller.ConvergedReconcileOnlyMirrors | internal/controller/app_controller.go:93-108 | When the App's deployment and autoscaler already carry their templates' specs, a reconcile whose App fetch, owner and Get steps succeed leaves every child object as it was and writes nothing but the App status. |
| Controller.ReconcileSettles | internal/controller/app_controller.go:93-108 | After a reconcile that returned no error, the next reconcile whose App fetch, owner and Get steps succeed leaves every child object as it was and writes nothing but the App status. |
| Controller.FreshAppGetsDeploymentAndHpa | internal/controller/app_controller.go:93-108 | A fault-free reconcile of an App with no children creates exactly its deployment and then its autoscaler, and nothing else. |
| Events.AppPredicate | internal/controller/app_controller.go:120-137 | The App watch filter: creates pass, deletes do not, and an update passes when the resource version and the deployment section both changed; `Events.AppPredicateAdmits` states it as one equivalence. |
| Events.AppPredicateAdmits | internal/controller/app_controller.go:120-137 | An App event starts a reconcile exactly when it is a create, or an update with a new resource version and a changed deployment section. |
| Events.StatusOnlyAppUpdateDropped | internal/controller/app_controller.go:128-136 | An App update that leaves the spec alone, such as the controller's own status write, never triggers a reconcile. |
| Events.ServiceAndIngressEditsDropped | internal/controller/app_controller.go:132-134 | Edits to an App's service or ingress settings alone never trigger a reconcile. |
| Events.OwnedPredicate | internal/controller/app_controller.go:138-173 | The filter on owned deployments and autoscalers: deletes pass, creates do not, and an update passes when the resource version and the spec both changed; `Events.OwnedPredicateAdmits` states it as one equivalence. |
| Events.OwnedPredicateAdmits | internal/controller/app_controller.go:138-173 | A deployment or autoscaler event starts a reconcile exactly when it is a delete, or an update with a new resource version and a changed spec. |
| Events.ChildStatusOnlyUpdateDropped | internal/controller/app_controller.go:146-154 | A child update that changes only its status does not trigger the owner. |
| Events.ResyncDropped | internal/controller/app_controller.go:129-131 | A redelivery with an unchanged resource version passes neither filter. |
| Webhook.ValidateApp | api/v1/app_webhook.go:83-91 | The validator admits an App exactly when its ingress is disabled. A refusal with a node port set names the conflict; a refusal without one carries the second message. No warnings are emitted. |
| Webhook.ValidateCreate | api/v1/app_webhook.go:58-64 | Creation is admitted exactly when the ingress is disabled. |
| Webhook.ValidateUpdate | api/v1/app_webhook.go:67-73 | Updates are admitted exactly when the new ingress is disabled. |
| Webhook.ValidateUpdateIgnoresOld | api/v1/app_webhook.go:67-73 | The verdict on an update does not depend on the previous object, and equals the create verdict. |
| Webhook.ValidateDelete | api/v1/app_webhook.go:76-81 | Deletion is always admitted, with no warnings. |
| Webhook.ValidateAppDependsOnlyOnSwitches | api/v1/app_webhook.go:83-91 | Two Apps that agree on the ingress switch and the node port get the same verdict. |
| Webhook.Default | api/v1/app_webhook.go:45-50 | Defaulting replaces all annotations with the single `aloys: aloys` annotation and changes nothing else. |
| Webhook.DefaultIdempotent | api/v1/app_webhook.go:45-50 | Defaulting twice is the same as defaulting once. |
| Webhook.DefaultPreservesVerdict | api/v1/app_webhook.go:45-91 | Defaulting never changes the validator's verdict. |
| Webhook.DefaultForgetsAnnotations | api/v1/app_webhook.go:49 | Apps that differ only in their annotations default to the same App. |
| Admitted.AdmittedNeverWantsIngress | api/v1/app_webhook.go:83-91 | No admitted App both enables the ingress and leaves the node port unset, which is the ingress reconciler's condition for keeping an ingress. |
| Admitted.WantedIngressRefused | api/v1/app_webhook.go:87-89 | An App that would get an ingress is refused with the second message. |
| Admitted.AdmittedAppIngressOnlyRemoved | internal/controller/ingress.go:33-63 | For an admitted App the ingress reconciler never creates, updates or writes status. It at most deletes the App's ingress, which is then gone after a pass whose Get and writes succeed. |

## Left out

- Logging and the event recorder (`r.Eventer.Eventf` in `internal/controller/deployment.go`) are left out. They have no effect on the decisions. `AppReconciler` as declared has no `Eventer` field, so that file would not compile as written.
- `GetNamespacedName` is declared both in `internal/controller/base.go` and in `internal/controller/app_controller.go`, which Go rejects. The two bodies are identical and modelled once.
- The bodies of the template renderers (`internal/utils/resource.go`) are not modelled: they are the `Builder` parameter. The model assumes they name each child by the same rule as `GetNamespacedName` and do not read the App's status.
- The template renderers are assumed always to succeed: a `Builder` is total. In the code each one can fail.
  - `parseTemplate` reads `internal/template/*.yml` relative to the working directory and panics when that read or the rendering fails (`internal/utils/resource.go:18-26`).
  - `NewDeployment` recovers such a panic and returns nil (`internal/utils/resource.go:31-41`); `NewIngress` and `NewService` let it propagate (`internal/utils/resource.go:46-49`, `:57-66`); `NewHorizontalPodAutoscaler` returns nil when the rendered text does not parse (`internal/utils/resource.go:73-76`).
  - A nil template is then dereferenced by `ctrl.SetControllerReference` (for instance `internal/controller/deployment.go:19-20`), so the reconcile crashes rather than returning an error with the generic requeue.
  - No fault slot stands in for this: the `owner` slot models a returned error, not a crash. `Controller.FreshAppGetsDeploymentAndHpa`, and every statement that a fault-free pass succeeds or converges, holds only under this assumption.
- Resource versions and optimistic concurrency on writes are not modelled. A write fails only when the fault oracle says so or the key's presence forbids it. `AlreadyExists` and `Conflict` races come from the oracle.
- The work queue, the five concurrent workers (`MaxConcurrentReconciles: 5`), the informer cache and its staleness are left out. Each reconcile runs alone against the cluster it is given.
- The manager setup and webhook registration in `cmd/main.go`, and the example programs under `doc/client/`, are not part of this model.
- The final `return ctrl.Result{}, err` of `reconcileIngress` (`internal/controller/ingress.go:90`) is unreachable, because the preceding branches cover every case where the error is NotFound. It has no counterpart in the model.
- The store keeps every written spec exactly as sent. The API server's defaulting and mutation of child specs is not modelled, nor are other writers of the children, such as the autoscaler rescaling the deployment's replicas. `Create` stores the template's status, where a real server would reset it. `DeploymentReconciler.DeploymentSettles`, `DeploymentReconciler.DeploymentConverges`, `ServiceReconciler.ServiceIdempotent`, `Controller.ReconcileConverges`, `Controller.ReconcileIdempotent`, `Controller.ReconcileSettles` and `Controller.FreshAppGetsDeploymentAndHpa` hold only under this assumption. Against a real server a defaulted field makes the specs differ on every pass, so the update repeats forever; the comment at `api/v1/app_types.go:38` reports such endless updates when `replace` exceeds the autoscaler's bound.
- Durations are integers in nanoseconds. The exact `time.Duration` encoding is not modelled.
- Controller.ReconcileLogAccountsFor: on an error it states that the cluster is the whole log or all but its last write replayed, without saying which. The reconciler-level lemmas state it exactly.

=== FILE: admitted.dfy ===
/** What admission implies for the ingress reconciler. The validator refuses
    every App with the ingress enabled, while the ingress reconciler only
    creates or keeps an ingress for an App with the ingress enabled. For an
    admitted App, the reconciler can therefore only delete an ingress. */
module Admitted {
  import opened Kube
  import opened AppTypes
  import opened Base
  import opened Client
  import Webhook
  import IngressReconciler

  /** No App that passes validation wants an ingress. */
  lemma AdmittedNeverWantsIngress(app: App)
    requires Webhook.ValidateCreate(app).Allowed()
    ensures !IngressReconciler.IngressWanted(app.spec)
  {
  }

  /** Any App that wants an ingress is refused, with the second message:
      its node port is unset, so the conflict check does not fire first. */
  lemma WantedIngressRefused(app: App)
    requires IngressReconciler.IngressWanted(app.spec)
    ensures Webhook.ValidateApp(app).err == Some(Failure(Webhook.IngressEnabled))
  {
  }

  /** For an admitted App the ingress reconciler never creates or updates
      anything and never writes the App status: it at most deletes the
      App's ingress, and after a pass whose Get and writes succeeded no such
      ingress exists. */
  lemma AdmittedAppIngressOnlyRemoved(app: App, c: Cluster, build: Builder, f: Faults)
    requires Webhook.ValidateApp(app).Allowed()
    ensures var s := IngressReconciler.ReconcileIngress(app, c, build, f);
      && (forall w <- s.writes :: w == Delete(IngressKind, ChildKey(app, IngressSuffix)))
      && s.app == app
      && (s.err.None? && f.get.None? ==> ChildKey(app, IngressSuffix) !in s.cluster.ingresses)
  {
    var key := ChildKey(app, IngressSuffix);
    if f.owner.None? && f.get.None? && key in c.ingresses {
      IngressReconciler.IngressFound(app, c, build, f);
    }
  }
}

=== FILE: app_types.dfy ===
/** The App custom resource: its spec, the status block the controller mirrors
    child state into, and the structural schema the API server enforces on
    the spec before any webhook or reconciler sees it. */
module AppTypes {
  import opened Kube

  datatype MyDeployment = MyDeployment(image: string, replace: int)

  datatype MyService = MyService(port: int, nodePort: int)

  datatype MyIngress = MyIngress(isEnable: bool, host: string, path: string)

  datatype AppSpec = AppSpec(deployment: MyDeployment, service: MyService, ingress: MyIngress)

  /** One mirror slot per child kind, plus the label selector used by the
      scale subresource. */
  datatype AppStatus = AppStatus(
    deploymentStatus: DeploymentStatus,
    serviceSpec: ServiceSpec,
    ingressSpec: IngressSpec,
    hpaStatus: HpaStatus,
    selector: string)

  datatype ObjectMeta = ObjectMeta(
    namespace: string,
    name: string,
    resourceVersion: string,
    annotations: map<string, string>)

  datatype App = App(meta: ObjectMeta, spec: AppSpec, status: AppStatus)

  /** The identity under which an App is stored and fetched. */
  function Key(app: App): NamespacedName
  {
    NamespacedName(app.meta.namespace, app.meta.name)
  }

  const MaxReplace := 8
  const MinNodePort := 30000
  const MaxNodePort := 37000

  /** The bounds the schema places on a stored spec. A zero node port is the
      Go zero value of an omitted field and means "no node port". */
  predicate ValidSpec(spec: AppSpec)
  {
    && spec.deployment.replace <= MaxReplace
    && (spec.service.nodePort == 0 || MinNodePort <= spec.service.nodePort <= MaxNodePort)
  }

  /** The zero value of the spec, which is what an App without a `spec`
      object decodes to. */
  const ZeroSpec := AppSpec(MyDeployment("", 0), MyService(0, 0), MyIngress(false, "", ""))

  // The spec as it arrives on the wire: a field the client left out is None.
  datatype RawDeployment = RawDeployment(image: Option<string>, replace: Option<int>)
  datatype RawService = RawService(port: Option<int>, nodePort: Option<int>)
  datatype RawIngress = RawIngress(isEnable: Option<bool>, host: Option<string>, path: Option<string>)
  datatype RawAppSpec = RawAppSpec(
    deployment: Option<RawDeployment>,
    service: Option<RawService>,
    ingress: Option<RawIngress>)

  function OrElse<T>(o: Option<T>, zero: T): T
  {
    if o.Some? then o.value else zero
  }

  predicate InRange(lo: int, x: int, hi: int)
  {
    lo <= x <= hi
  }

  /** Structural admission of a spec: `deployment` and `service` are required
      because their JSON tags have no `omitempty`; `image` and `replace` are
      required, `replace` is at most 8; `port` is optional; `nodePort`, when
      sent, lies in [30000, 37000]; the ingress and all its fields are
      optional. Omitted optional fields decode to Go zero values. */
  function DecodeSpec(raw: Option<RawAppSpec>): (r: Result<AppSpec>)
    ensures raw.None? ==> r == Ok(ZeroSpec)
    ensures raw.Some? ==>
      (r.Ok? <==>
        && raw.value.deployment.Some?
        && raw.value.deployment.value.image.Some?
        && raw.value.deployment.value.replace.Some?
        && raw.value.deployment.value.replace.value <= MaxReplace
        && raw.value.service.Some?
        && (raw.value.service.value.nodePort.None?
            || MinNodePort <= raw.value.service.value.nodePort.value <= MaxNodePort))
    ensures r.Ok? ==> ValidSpec(r.value)
    ensures r.Ok? && raw.Some? ==>
      && r.value.deployment.image == raw.value.deployment.value.image.value
      && r.value.deployment.replace == raw.value.deployment.value.replace.value
    // every optional field sent is carried; every one omitted is its zero value
    ensures r.Ok? && raw.Some? ==>
      var svc := raw.value.service.value;
      && (svc.port.Some? ==> r.value.service.port == svc.port.value)
      && (svc.port.None? ==> r.value.service.port == 0)
      && (svc.nodePort.Some? ==> r.value.service.nodePort == svc.nodePort.value)
      && (svc.nodePort.None? ==> r.value.service.nodePort == 0)
    ensures r.Ok? && raw.Some? && raw.value.ingress.None? ==> r.value.ingress == MyIngress(false, "", "")
    ensures r.Ok? && raw.Some? && raw.value.ingress.Some? ==>
      var ing := raw.value.ingress.value;
      && (ing.isEnable.Some? ==> r.value.ingress.isEnable == ing.isEnable.value)
      && (ing.isEnable.None? ==> !r.value.ingress.isEnable)
      && (ing.host.Some? ==> r.value.ingress.host == ing.host.value)
      && (ing.host.None? ==> r.value.ingress.host == "")
      && (ing.path.Some? ==> r.value.ingress.path == ing.path.value)
      && (ing.path.None? ==> r.value.ingress.path == "")
  {
    match raw
    case None => Ok(ZeroSpec)
    case Some(s) =>
      if s.deployment.None? then Err(Invalid("spec.deployment"))
      else if s.deployment.value.image.None? then Err(Invalid("spec.deployment.image"))
      else if s.deployment.value.replace.None? then Err(Invalid("spec.deployment.replace"))
      else if s.deployment.value.replace.value > MaxReplace then Err(Invalid("spec.deployment.replace"))
      else if s.service.None? then Err(Invalid("spec.service"))
      else if s.service.value.nodePort.Some? && !InRange(MinNodePort, s.service.value.nodePort.value, MaxNodePort)
      then Err(Invalid("spec.service.nodePort"))
      else
        var d := s.deployment.value;
        var svc := s.service.value;
        var ing := OrElse(s.ingress, RawIngress(None, None, None));
        Ok(AppSpec(
          MyDeployment(d.image.value, d.replace.value),
          MyService(OrElse(svc.port, 0), OrElse(svc.nodePort, 0)),
          MyIngress(OrElse(ing.isEnable, false), OrElse(ing.host, ""), OrElse(ing.path, ""))))
  }

  /** Omits a field holding its zero value, as `omitempty` does. */
  function OmitEmpty<T(==)>(x: T, zero: T): Option<T>
  {
    if x == zero then None else Some(x)
  }

  /** JSON encoding of a spec. `image`, `replace` and `port` carry no
      `omitempty` and are always sent; `nodePort` and the ingress fields are
      left out when zero. The ingress object itself is always sent: Go's
      `omitempty` has no effect on struct-typed fields. */
  function EncodeSpec(spec: AppSpec): RawAppSpec
  {
    RawAppSpec(
      Some(RawDeployment(Some(spec.deployment.image), Some(spec.deployment.replace))),
      Some(RawService(Some(spec.service.port), OmitEmpty(spec.service.nodePort, 0))),
      Some(RawIngress(
        OmitEmpty(spec.ingress.isEnable, false),
        OmitEmpty(spec.ingress.host, ""),
        OmitEmpty(spec.ingress.path, ""))))
  }

  /** Every spec within the schema's bounds survives an encode/admit round
      trip, and nothing outside them does. */
  lemma DecodeEncodeRoundTrip(spec: AppSpec)
    ensures ValidSpec(spec) <==> DecodeSpec(Some(EncodeSpec(spec))) == Ok(spec)
  {
    var raw := EncodeSpec(spec);
    if ValidSpec(spec) {
      assert raw.service.value.nodePort.Some? ==> InRange(MinNodePort, raw.service.value.nodePort.value, MaxNodePort);
    }
  }
}

=== FILE: base.dfy ===
/** Package-level helpers of the controller: child identities and the
    requeue delay every failing reconciler asks for. */
module Base {
  import opened Kube
  import opened AppTypes

  /** `GenericRequeueDuration`: one minute. */
  const GenericRequeueDuration: Duration := 1 * Minute

  /** The result of a pass that converged: no requeue. */
  const Done := ReconcileResult(0)

  /** The result of a pass that failed: try again after the generic delay. */
  const RetryLater := ReconcileResult(GenericRequeueDuration)

  // The suffixes that name each child kind after its parent App.
  const DeploySuffix := "-deploy"
  const ServiceSuffix := "-svc"
  const IngressSuffix := "-ingress"
  const HpaSuffix := "-hpa"

  const ChildSuffixes := {DeploySuffix, ServiceSuffix, IngressSuffix, HpaSuffix}

  /** Identity of a child: the parent's name followed by the kind's suffix,
      in the parent's namespace. */
  function GetNamespacedName(name: string, suffix: string, namespace: string): (n: NamespacedName)
    ensures |n.name| == |name| + |suffix|
    ensures n.name[..|name|] == name && n.name[|name|..] == suffix
    ensures n.namespace == namespace
  {
    NamespacedName(namespace, name + suffix)
  }

  /** The identity of an App's child of the kind named by `suffix`. */
  function ChildKey(app: App, suffix: string): NamespacedName
  {
    GetNamespacedName(app.meta.name, suffix, app.meta.namespace)
  }

  /** For one suffix, distinct parents have distinct children. */
  lemma GetNamespacedNameInjective(a: string, b: string, suffix: string, ns: string, ns': string)
    ensures GetNamespacedName(a, suffix, ns) == GetNamespacedName(b, suffix, ns') <==> a == b && ns == ns'
  {
    var n, n' := GetNamespacedName(a, suffix, ns), GetNamespacedName(b, suffix, ns');
    if n == n' {
      assert |a| == |b|;
      assert a == n.name[..|a|] == n'.name[..|b|] == b;
    }
  }

  /** The last character of a suffixed name is the suffix's last character. */
  lemma LastOfSuffixed(name: string, suffix: string)
    requires suffix != []
    ensures var s := name + suffix; s[|s| - 1] == suffix[|suffix| - 1]
  {
  }

  /** Children of different kinds never share an identity, whatever their
      parents are called: the four suffixes end in different characters. */
  lemma ChildKindsNeverCollide(a: string, b: string, s: string, s': string, ns: string, ns': string)
    requires s in ChildSuffixes && s' in ChildSuffixes && s != s'
    ensures GetNamespacedName(a, s, ns) != GetNamespacedName(b, s', ns')
  {
    LastOfSuffixed(a, s);
    LastOfSuffixed(b, s');
    assert s[|s| - 1] != s'[|s'| - 1];
  }
}

=== FILE: client.dfy ===
/** The cluster as the reconcilers see it through the controller-runtime
    client: one store per child kind plus the Apps, the writes a reconciler
    issues, the faults an injected oracle assigns to its calls, and the
    template builder that renders desired children. */
module Client {
  import opened Kube
  import opened AppTypes
  import opened Base

  datatype Kind = DeploymentKind | ServiceKind | IngressKind | HpaKind

  type Deployment = Obj<DeploymentSpec, DeploymentStatus>
  type Service = Obj<ServiceSpec, ServiceStatus>
  type Ingress = Obj<IngressSpec, IngressStatus>
  type Hpa = Obj<HpaSpec, HpaStatus>

  /** A child object of any kind. */
  datatype Object =
    | DeploymentObject(deployment: Deployment)
    | ServiceObject(service: Service)
    | IngressObject(ingress: Ingress)
    | HpaObject(hpa: Hpa)

  function KindOf(o: Object): Kind
  {
    match o
    case DeploymentObject(_) => DeploymentKind
    case ServiceObject(_) => ServiceKind
    case IngressObject(_) => IngressKind
    case HpaObject(_) => HpaKind
  }

  /** A write sent to the API server. `UpdateStatus` is
      `r.Status().Update(ctx, app)`: it carries the App status to persist. */
  datatype Write =
    | Create(name: NamespacedName, obj: Object)
    | Update(name: NamespacedName, obj: Object)
    | Delete(kind: Kind, name: NamespacedName)
    | UpdateStatus(app: NamespacedName, status: AppStatus)

  /** Whether `w` writes a child of kind `k`. */
  predicate Touches(w: Write, k: Kind)
  {
    match w
    case Create(_, o) => KindOf(o) == k
    case Update(_, o) => KindOf(o) == k
    case Delete(kind, _) => kind == k
    case UpdateStatus(_, _) => false
  }

  datatype Cluster = Cluster(
    apps: map<NamespacedName, App>,
    deployments: Store<DeploymentSpec, DeploymentStatus>,
    services: Store<ServiceSpec, ServiceStatus>,
    ingresses: Store<IngressSpec, IngressStatus>,
    hpas: Store<HpaSpec, HpaStatus>)

  datatype Performed = Performed(cluster: Cluster, err: Option<Error>)

  /** Sends `w` to the API server; `fault`, when present, is the error the
      call fails with before it changes anything. */
  function Perform(c: Cluster, w: Write, fault: Option<Error>): Performed
  {
    match w
    case Create(n, o) => PerformCreate(c, n, o, fault)
    case Update(n, o) => PerformUpdate(c, n, o, fault)
    case Delete(k, n) => PerformDelete(c, k, n, fault)
    case UpdateStatus(n, status) =>
      if fault.Some? then Performed(c, fault)
      else if n !in c.apps then Performed(c, Some(NotFound))
      else Performed(c.(apps := c.apps[n := c.apps[n].(status := status)]), None)
  }

  function PerformCreate(c: Cluster, n: NamespacedName, o: Object, fault: Option<Error>): Performed
  {
    match o
    case DeploymentObject(d) =>
      var r := Kube.Create(c.deployments, n, d, fault); Performed(c.(deployments := r.store), r.err)
    case ServiceObject(d) =>
      var r := Kube.Create(c.services, n, d, fault); Performed(c.(services := r.store), r.err)
    case IngressObject(d) =>
      var r := Kube.Create(c.ingresses, n, d, fault); Performed(c.(ingresses := r.store), r.err)
    case HpaObject(d) =>
      var r := Kube.Create(c.hpas, n, d, fault); Performed(c.(hpas := r.store), r.err)
  }

  function PerformUpdate(c: Cluster, n: NamespacedName, o: Object, fault: Option<Error>): Performed
  {
    match o
    case DeploymentObject(d) =>
      var r := Kube.Update(c.deployments, n, d, fault); Performed(c.(deployments := r.store), r.err)
    case ServiceObject(d) =>
      var r := Kube.Update(c.services, n, d, fault); Performed(c.(services := r.store), r.err)
    case IngressObject(d) =>
      var r := Kube.Update(c.ingresses, n, d, fault); Performed(c.(ingresses := r.store), r.err)
    case HpaObject(d) =>
      var r := Kube.Update(c.hpas, n, d, fault); Performed(c.(hpas := r.store), r.err)
  }

  function PerformDelete(c: Cluster, k: Kind, n: NamespacedName, fault: Option<Error>): Performed
  {
    match k
    case DeploymentKind =>
      var r := Kube.Delete(c.deployments, n, fault); Performed(c.(deployments := r.store), r.err)
    case ServiceKind =>
      var r := Kube.Delete(c.services, n, fault); Performed(c.(services := r.store), r.err)
    case IngressKind =>
      var r := Kube.Delete(c.ingresses, n, fault); Performed(c.(ingresses := r.store), r.err)
    case HpaKind =>
      var r := Kube.Delete(c.hpas, n, fault); Performed(c.(hpas := r.store), r.err)
  }

  /** The store of kind `k` is the same in `c` and `c'`. */
  predicate KindUnchanged(c: Cluster, c': Cluster, k: Kind)
  {
    match k
    case DeploymentKind => c'.deployments == c.deployments
    case ServiceKind => c'.services == c.services
    case IngressKind => c'.ingresses == c.ingresses
    case HpaKind => c'.hpas == c.hpas
  }

  /** A write leaves the stores of the kinds it does not touch alone. */
  lemma PerformFrame(c: Cluster, w: Write, fault: Option<Error>, k: Kind)
    requires !Touches(w, k)
    ensures KindUnchanged(c, Perform(c, w, fault).cluster, k)
  {
    match w
    case Create(n, o) => CreateFrame(c, n, o, fault, k);
    case Update(n, o) => UpdateFrame(c, n, o, fault, k);
    case Delete(kind, n) => DeleteFrame(c, kind, n, fault, k);
    case UpdateStatus(_, _) =>
  }

  lemma CreateFrame(c: Cluster, n: NamespacedName, o: Object, fault: Option<Error>, k: Kind)
    requires KindOf(o) != k
    ensures KindUnchanged(c, PerformCreate(c, n, o, fault).cluster, k)
  {
    match k
    case DeploymentKind =>
    case ServiceKind =>
    case IngressKind =>
    case HpaKind =>
  }

  lemma UpdateFrame(c: Cluster, n: NamespacedName, o: Object, fault: Option<Error>, k: Kind)
    requires KindOf(o) != k
    ensures KindUnchanged(c, PerformUpdate(c, n, o, fault).cluster, k)
  {
    match k
    case DeploymentKind =>
    case ServiceKind =>
    case IngressKind =>
    case HpaKind =>
  }

  lemma DeleteFrame(c: Cluster, kind: Kind, n: NamespacedName, fault: Option<Error>, k: Kind)
    requires kind != k
    ensures KindUnchanged(c, PerformDelete(c, kind, n, fault).cluster, k)
  {
    match k
    case DeploymentKind =>
    case ServiceKind =>
    case IngressKind =>
    case HpaKind =>
  }

  /** The cluster after the writes `ws`, each applied as it would be with no
      injected fault. */
  function Replay(c: Cluster, ws: seq<Write>): Cluster
    decreases |ws|
  {
    if ws == [] then c else Replay(Perform(c, ws[0], None).cluster, ws[1..])
  }

  /** Replaying a log in two halves is replaying it whole. */
  lemma {:induction false} ReplayAppend(c: Cluster, ws: seq<Write>, ws': seq<Write>)
    ensures Replay(c, ws + ws') == Replay(Replay(c, ws), ws')
    decreases |ws|
  {
    if ws == [] {
      assert ws + ws' == ws';
    } else {
      assert (ws + ws')[0] == ws[0];
      assert (ws + ws')[1..] == ws[1..] + ws';
      ReplayAppend(Perform(c, ws[0], None).cluster, ws[1..], ws');
    }
  }

  lemma ReplayOne(c: Cluster, w: Write)
    ensures Replay(c, [w]) == Perform(c, w, None).cluster
  {
    assert [w][1..] == [];
  }

  lemma ReplayTwo(c: Cluster, w: Write, w': Write)
    ensures Replay(c, [w, w']) == Perform(Perform(c, w, None).cluster, w', None).cluster
  {
    assert [w, w'][1..] == [w'];
    ReplayOne(Perform(c, w, None).cluster, w');
  }

  /** The same Apps are stored in `c` and `c'`, with the same metadata and
      spec: at most their statuses differ. */
  predicate AppSpecsKept(c: Cluster, c': Cluster)
  {
    && c'.apps.Keys == c.apps.Keys
    && forall k | k in c.apps :: c'.apps[k].meta == c.apps[k].meta && c'.apps[k].spec == c.apps[k].spec
  }

  /** No write the controller can issue edits an App's metadata or spec. */
  lemma PerformKeepsAppSpecs(c: Cluster, w: Write, fault: Option<Error>)
    ensures AppSpecsKept(c, Perform(c, w, fault).cluster)
  {
    match w
    case Create(n, o) => CreateKeepsApps(c, n, o, fault);
    case Update(n, o) => UpdateKeepsApps(c, n, o, fault);
    case Delete(k, n) => DeleteKeepsApps(c, k, n, fault);
    case UpdateStatus(n, status) =>
  }

  lemma CreateKeepsApps(c: Cluster, n: NamespacedName, o: Object, fault: Option<Error>)
    ensures PerformCreate(c, n, o, fault).cluster.apps == c.apps
  {
    match o
    case DeploymentObject(_) =>
    case ServiceObject(_) =>
    case IngressObject(_) =>
    case HpaObject(_) =>
  }

  lemma UpdateKeepsApps(c: Cluster, n: NamespacedName, o: Object, fault: Option<Error>)
    ensures PerformUpdate(c, n, o, fault).cluster.apps == c.apps
  {
    match o
    case DeploymentObject(_) =>
    case ServiceObject(_) =>
    case IngressObject(_) =>
    case HpaObject(_) =>
  }

  lemma DeleteKeepsApps(c: Cluster, k: Kind, n: NamespacedName, fault: Option<Error>)
    ensures PerformDelete(c, k, n, fault).cluster.apps == c.apps
  {
    match k
    case DeploymentKind =>
    case ServiceKind =>
    case IngressKind =>
    case HpaKind =>
  }

  /** Replaying any log keeps every App's metadata and spec. */
  lemma {:induction false} ReplayKeepsAppSpecs(c: Cluster, ws: seq<Write>)
    ensures AppSpecsKept(c, Replay(c, ws))
    decreases |ws|
  {
    if ws != [] {
      var c' := Perform(c, ws[0], None).cluster;
      PerformKeepsAppSpecs(c, ws[0], None);
      ReplayKeepsAppSpecs(c', ws[1..]);
    }
  }

  /** The errors the oracle assigns to one reconciler's calls, in the order
      the reconciler makes them: setting the controller reference, the Get
      of the child, the one child write, the one App status write. */
  datatype Faults = Faults(
    owner: Option<Error>,
    get: Option<Error>,
    write: Option<Error>,
    status: Option<Error>)

  const NoFaults := Faults(None, None, None, None)

  /** A rendered template: the spec and the status of a desired child. */
  datatype Template<S, T> = Template(spec: S, status: T)

  /** The template renderers, one per kind, applied to the App's identity and
      spec. */
  datatype Builder = Builder(
    deployment: (NamespacedName, AppSpec) -> Template<DeploymentSpec, DeploymentStatus>,
    service: (NamespacedName, AppSpec) -> Template<ServiceSpec, ServiceStatus>,
    ingress: (NamespacedName, AppSpec) -> Template<IngressSpec, IngressStatus>,
    hpa: (NamespacedName, AppSpec) -> Template<HpaSpec, HpaStatus>)

  /** A rendered template with the App set as its controller. */
  function Own<S, T>(t: Template<S, T>, app: App): Obj<S, T>
  {
    Obj(Some(Key(app)), t.spec, t.status)
  }

  /** What a per-kind reconciler hands back: the App as it left it in memory,
      the cluster, the writes it issued (including one that failed), and its
      `(ctrl.Result, error)` pair. */
  datatype Step = Step(
    app: App,
    cluster: Cluster,
    writes: seq<Write>,
    result: ReconcileResult,
    err: Option<Error>)

  /** Persists `app`'s status after `writes` and returns, as every reconciler
      does after changing a mirror field. */
  function PersistStatus(app: App, c: Cluster, writes: seq<Write>, fault: Option<Error>): (s: Step)
    ensures s.app == app && Consistent(s)
    ensures s.writes == writes + [UpdateStatus(Key(app), app.status)]
    // only the App store can change, and only at this App's status
    ensures s.cluster == c.(apps := s.cluster.apps)
    ensures s.err.None? <==> fault.None? && Key(app) in c.apps
    ensures s.err.None? ==> s.cluster.apps == c.apps[Key(app) := c.apps[Key(app)].(status := app.status)]
    ensures s.err.Some? ==> s.cluster == c
  {
    var w := UpdateStatus(Key(app), app.status);
    var p := Perform(c, w, fault);
    Step(app, p.cluster, writes + [w], if p.err.Some? then RetryLater else Done, p.err)
  }

  /** A failing step changed nothing on its own: the cluster is what the
      writes before the failed one left behind. A converged step's cluster is
      exactly its log replayed. */
  predicate LogAccountsFor(c: Cluster, s: Step)
  {
    && (s.err.None? ==> Replay(c, s.writes) == s.cluster)
    && (s.err.Some? && s.writes != [] ==> Replay(c, s.writes[..|s.writes| - 1]) == s.cluster)
    && (s.writes == [] ==> s.cluster == c)
  }

  /** The result and the error agree: requeue after the generic delay
      exactly when an error is returned. */
  predicate Consistent(s: Step)
  {
    s.result == (if s.err.Some? then RetryLater else Done)
  }
}

=== FILE: controller.dfy ===
/** The top-level reconcile of the App controller: fetch the App, then run the
    deployment reconciler and, if it succeeded, the autoscaler reconciler on
    the App as the first one left it. The service and ingress reconcilers
    exist but are not called from here. */
module Controller {
  import opened Kube
  import opened AppTypes
  import opened Base
  import opened Client
  import DeploymentReconciler
  import HpaReconciler

  /** The errors injected into one reconcile: the fetch of the App, and the
      calls of each of the two reconcilers it runs. */
  datatype Oracle = Oracle(getApp: Option<Error>, deployment: Faults, hpa: Faults)

  const NoOracle := Oracle(None, NoFaults, NoFaults)

  /** The outcome of one reconcile: the cluster, every write issued in order
      (a failed one included), and the `(ctrl.Result, error)` pair. */
  datatype Pass = Pass(cluster: Cluster, writes: seq<Write>, result: ReconcileResult, err: Option<Error>)

  /** The delay requested when the App itself cannot be fetched. */
  const FetchRetryDuration: Duration := 1 * Minute

  /** `r.Get` of the App named by the request. */
  function FetchApp(c: Cluster, req: NamespacedName, fault: Option<Error>): (r: Result<App>)
    ensures r.Ok? <==> fault.None? && req in c.apps
    ensures r.Ok? ==> r.value == c.apps[req]
    ensures fault.None? && req !in c.apps ==> r == Err(NotFound)
  {
    if fault.Some? then Err(fault.value)
    else if req !in c.apps then Err(NotFound)
    else Ok(c.apps[req])
  }

  /** `Reconcile`. */
  function Reconcile(req: NamespacedName, c: Cluster, build: Builder, o: Oracle): (p: Pass)
    // requeue after the generic delay exactly when an error is returned
    ensures p.result == (if p.err.Some? then RetryLater else Done)
    ensures |p.writes| <= 3
    // a deleted App ends the request quietly
    ensures FetchApp(c, req, o.getApp) == Err(NotFound) ==> p == Pass(c, [], Done, None)
    // any other fetch error is returned, with nothing written
    ensures FetchApp(c, req, o.getApp).Err? && FetchApp(c, req, o.getApp).error != NotFound ==>
      p == Pass(c, [], ReconcileResult(FetchRetryDuration), o.getApp)
  {
    match FetchApp(c, req, o.getApp)
    case Err(e) =>
      if e == NotFound then Pass(c, [], Done, None)
      else Pass(c, [], ReconcileResult(FetchRetryDuration), Some(e))
    case Ok(app) =>
      var s1 := DeploymentReconciler.ReconcileDeployment(app, c, build, o.deployment);
      if s1.err.Some? then Pass(s1.cluster, s1.writes, s1.result, s1.err)
      else
        var s2 := HpaReconciler.ReconcileHpa(s1.app, s1.cluster, build, o.hpa);
        if s2.err.Some? then Pass(s2.cluster, s1.writes + s2.writes, s2.result, s2.err)
        else Pass(s2.cluster, s1.writes + s2.writes, Done, None)
  }

  /** The two steps of a reconcile that found its App, named for the proofs. */
  lemma ReconcileSteps(req: NamespacedName, c: Cluster, build: Builder, o: Oracle)
    requires o.getApp.None? && req in c.apps
    ensures var app := c.apps[req];
      var s1 := DeploymentReconciler.ReconcileDeployment(app, c, build, o.deployment);
      var s2 := HpaReconciler.ReconcileHpa(s1.app, s1.cluster, build, o.hpa);
      var p := Reconcile(req, c, build, o);
      && (s1.err.Some? ==> p == Pass(s1.cluster, s1.writes, RetryLater, s1.err))
      && (s1.err.None? ==> p == Pass(s2.cluster, s1.writes + s2.writes, s2.result, s2.err))
  {
  }

  /** A failing deployment step ends the reconcile: its error and the
      generic requeue are returned, and no autoscaler is read or written. */
  lemma DeploymentFailureStopsReconcile(req: NamespacedName, c: Cluster, build: Builder, o: Oracle)
    requires o.getApp.None? && req in c.apps
    requires DeploymentReconciler.ReconcileDeployment(c.apps[req], c, build, o.deployment).err.Some?
    ensures var p := Reconcile(req, c, build, o);
      && p.err == DeploymentReconciler.ReconcileDeployment(c.apps[req], c, build, o.deployment).err
      && p.result == RetryLater
      && p.cluster.hpas == c.hpas
      && (forall w <- p.writes :: !Touches(w, HpaKind))
  {
    ReconcileSteps(req, c, build, o);
    FirstStepFrame(c.apps[req], c, build, o.deployment);
  }

  /** The deployment reconciler ran, and left the App's identity, spec and
      the rest of the cluster in the shape the autoscaler step relies on. */
  lemma FirstStepFrame(app: App, c: Cluster, build: Builder, f: Faults)
    ensures var s1 := DeploymentReconciler.ReconcileDeployment(app, c, build, f);
      && Key(s1.app) == Key(app) && s1.app.spec == app.spec
      && ChildKey(s1.app, HpaSuffix) == ChildKey(app, HpaSuffix)
      && HpaReconciler.DesiredHpa(s1.app, build) == HpaReconciler.DesiredHpa(app, build)
      && s1.cluster.services == c.services && s1.cluster.ingresses == c.ingresses
      && s1.cluster.hpas == c.hpas
      && (forall w <- s1.writes :: !Touches(w, ServiceKind) && !Touches(w, IngressKind) && !Touches(w, HpaKind))
  {
    var s1 := DeploymentReconciler.ReconcileDeployment(app, c, build, f);
    DeploymentReconciler.DeploymentFrame(app, c, build, f);
    assert KindUnchanged(c, s1.cluster, ServiceKind);
    assert KindUnchanged(c, s1.cluster, IngressKind);
    assert KindUnchanged(c, s1.cluster, HpaKind);
  }

  /** The autoscaler step's frame, in the terms the reconcile needs. */
  lemma SecondStepFrame(app: App, c: Cluster, build: Builder, f: Faults)
    ensures var s2 := HpaReconciler.ReconcileHpa(app, c, build, f);
      && s2.cluster.services == c.services && s2.cluster.ingresses == c.ingresses
      && s2.cluster.deployments == c.deployments
      && (forall w <- s2.writes :: !Touches(w, ServiceKind) && !Touches(w, IngressKind) && !Touches(w, DeploymentKind))
  {
    var s2 := HpaReconciler.ReconcileHpa(app, c, build, f);
    HpaReconciler.HpaFrame(app, c, build, f);
    assert KindUnchanged(c, s2.cluster, ServiceKind);
    assert KindUnchanged(c, s2.cluster, IngressKind);
    assert KindUnchanged(c, s2.cluster, DeploymentKind);
  }

  /** Services and ingresses are never written or changed by a reconcile. */
  lemma ReconcileLeavesServicesAndIngresses(req: NamespacedName, c: Cluster, build: Builder, o: Oracle)
    ensures var p := Reconcile(req, c, build, o);
      && p.cluster.services == c.services && p.cluster.ingresses == c.ingresses
      && (forall w <- p.writes :: !Touches(w, ServiceKind) && !Touches(w, IngressKind))
  {
    if o.getApp.None? && req in c.apps {
      var app := c.apps[req];
      var s1 := DeploymentReconciler.ReconcileDeployment(app, c, build, o.deployment);
      ReconcileSteps(req, c, build, o);
      FirstStepFrame(app, c, build, o.deployment);
      SecondStepFrame(s1.app, s1.cluster, build, o.hpa);
    }
  }

  /** No autoscaler write comes before a deployment write. */
  predicate DeploymentsBeforeHpas(ws: seq<Write>)
  {
    forall i, j :: 0 <= i < j < |ws| ==> !(Touches(ws[i], HpaKind) && Touches(ws[j], DeploymentKind))
  }

  /** Every deployment write of a reconcile comes before every autoscaler
      write. */
  lemma ReconcileOrdersWrites(req: NamespacedName, c: Cluster, build: Builder, o: Oracle)
    ensures DeploymentsBeforeHpas(Reconcile(req, c, build, o).writes)
  {
    var p := Reconcile(req, c, build, o);
    if o.getApp.None? && req in c.apps {
      var app := c.apps[req];
      var s1 := DeploymentReconciler.ReconcileDeployment(app, c, build, o.deployment);
      var s2 := HpaReconciler.ReconcileHpa(s1.app, s1.cluster, build, o.hpa);
      ReconcileSteps(req, c, build, o);
      FirstStepFrame(app, c, build, o.deployment);
      SecondStepFrame(s1.app, s1.cluster, build, o.hpa);
      if s1.err.None? {
        var n := |s1.writes|;
        assert p.writes == s1.writes + s2.writes;
        forall i, j | 0 <= i < j < |p.writes|
          ensures !(Touches(p.writes[i], HpaKind) && Touches(p.writes[j], DeploymentKind))
        {
          if j < n {
            assert p.writes[i] == s1.writes[i];
            assert !Touches(s1.writes[i], HpaKind);
          } else {
            assert p.writes[j] == s2.writes[j - n];
            assert !Touches(s2.writes[j - n], DeploymentKind);
          }
        }
      } else {
        assert p.writes == s1.writes;
        assert forall i :: 0 <= i < |p.writes| ==> !Touches(s1.writes[i], HpaKind);
      }
    }
  }

  /** The cluster a reconcile leaves behind is its log replayed: all of it
      when no error is returned, all of it or all but the failed last write
      otherwise. */
  predicate PassLogged(c: Cluster, p: Pass)
  {
    && (p.err.None? ==> Replay(c, p.writes) == p.cluster)
    && (p.err.Some? ==>
          || Replay(c, p.writes) == p.cluster
          || (p.writes != [] && Replay(c, p.writes[..|p.writes| - 1]) == p.cluster))
  }

  lemma ReconcileLogAccountsFor(req: NamespacedName, c: Cluster, build: Builder, o: Oracle)
    ensures PassLogged(c, Reconcile(req, c, build, o))
  {
    if o.getApp.None? && req in c.apps {
      var app := c.apps[req];
      var s1 := DeploymentReconciler.ReconcileDeployment(app, c, build, o.deployment);
      var s2 := HpaReconciler.ReconcileHpa(s1.app, s1.cluster, build, o.hpa);
      ReconcileSteps(req, c, build, o);
      DeploymentReconciler.DeploymentLogAccountsFor(app, c, build, o.deployment);
      if s1.err.None? {
        HpaReconciler.HpaLogAccountsFor(s1.app, s1.cluster, build, o.hpa);
        StepsLogged(c, s1, s2);
      } else {
        StepLogged(c, s1);
      }
    } else {
      assert Replay(c, []) == c;
    }
  }

  /** A failed first step, returned as the reconcile's outcome, is logged. */
  lemma StepLogged(c: Cluster, s1: Step)
    requires LogAccountsFor(c, s1) && s1.err.Some?
    ensures PassLogged(c, Pass(s1.cluster, s1.writes, RetryLater, s1.err))
  {
    if s1.writes == [] {
      assert Replay(c, []) == c;
    }
  }

  /** Two logged steps, the first one successful, make a logged reconcile. */
  lemma StepsLogged(c: Cluster, s1: Step, s2: Step)
    requires LogAccountsFor(c, s1) && s1.err.None?
    requires LogAccountsFor(s1.cluster, s2)
    ensures PassLogged(c, Pass(s2.cluster, s1.writes + s2.writes, s2.result, s2.err))
  {
    var ws := s1.writes + s2.writes;
    assert Replay(c, s1.writes) == s1.cluster;
    if s2.err.None? {
      ReplayAppend(c, s1.writes, s2.writes);
    } else if s2.writes == [] {
      assert ws == s1.writes;
    } else {
      var n := |s2.writes|;
      assert ws[..|ws| - 1] == s1.writes + s2.writes[..n - 1];
      ReplayAppend(c, s1.writes, s2.writes[..n - 1]);
    }
  }

  /** A reconcile never creates, deletes or edits an App, other than
      through its status. */
  lemma ReconcileKeepsAppSpecs(req: NamespacedName, c: Cluster, build: Builder, o: Oracle)
    ensures AppSpecsKept(c, Reconcile(req, c, build, o).cluster)
  {
    var p := Reconcile(req, c, build, o);
    ReconcileLogAccountsFor(req, c, build, o);
    if Replay(c, p.writes) == p.cluster {
      ReplayKeepsAppSpecs(c, p.writes);
    } else {
      ReplayKeepsAppSpecs(c, p.writes[..|p.writes| - 1]);
    }
  }

  /** A reconcile that returns no error leaves the desired deployment spec
      and the desired autoscaler spec in place for the fetched App. */
  lemma ReconcileConverges(req: NamespacedName, c: Cluster, build: Builder, o: Oracle)
    requires o.getApp.None? && req in c.apps
    ensures var p := Reconcile(req, c, build, o);
      var app := c.apps[req];
      var dk, hk := ChildKey(app, DeploySuffix), ChildKey(app, HpaSuffix);
      p.err.None? ==>
        && dk in p.cluster.deployments
        && p.cluster.deployments[dk].spec == DeploymentReconciler.DesiredDeployment(app, build).spec
        && hk in p.cluster.hpas
        && p.cluster.hpas[hk].spec == HpaReconciler.DesiredHpa(app, build).spec
  {
    var app := c.apps[req];
    var s1 := DeploymentReconciler.ReconcileDeployment(app, c, build, o.deployment);
    ReconcileSteps(req, c, build, o);
    if s1.err.None? {
      FirstStepFrame(app, c, build, o.deployment);
      SecondStepFrame(s1.app, s1.cluster, build, o.hpa);
    }
  }

  /** Idempotence: when the deployment matches its template and its status is
      mirrored, and the autoscaler matches its template in spec and status,
      a reconcile without faults in the App fetch, the owner steps and the
      Gets writes nothing and returns success. */
  lemma ReconcileIdempotent(req: NamespacedName, c: Cluster, build: Builder, o: Oracle)
    requires o.getApp.None? && req in c.apps
    requires o.deployment.owner.None? && o.deployment.get.None?
    requires o.hpa.owner.None? && o.hpa.get.None?
    requires var app := c.apps[req];
      var dk, hk := ChildKey(app, DeploySuffix), ChildKey(app, HpaSuffix);
      && dk in c.deployments
      && c.deployments[dk].spec == DeploymentReconciler.DesiredDeployment(app, build).spec
      && c.deployments[dk].status == app.status.deploymentStatus
      && hk in c.hpas
      && c.hpas[hk].spec == HpaReconciler.DesiredHpa(app, build).spec
      && c.hpas[hk].status == HpaReconciler.DesiredHpa(app, build).status
    ensures Reconcile(req, c, build, o) == Pass(c, [], Done, None)
  {
    var app := c.apps[req];
    DeploymentReconciler.DeploymentIdempotent(app, c, build, o.deployment);
    HpaReconciler.HpaQuietWhileMirrorStale(app, c, build, o.hpa);
    ReconcileSteps(req, c, build, o);
  }

  /** A reconcile over a cluster where the App's deployment and autoscaler
      already carry their templates' specs, with the App fetch, owner steps
      and Gets succeeding, leaves every child object alone and writes
      nothing but the App status. */
  lemma ConvergedReconcileOnlyMirrors(req: NamespacedName, c: Cluster, build: Builder, o: Oracle)
    requires o.getApp.None? && o.deployment.owner.None? && o.deployment.get.None?
    requires o.hpa.owner.None? && o.hpa.get.None?
    requires req in c.apps
    requires var app := c.apps[req];
      var dk, hk := ChildKey(app, DeploySuffix), ChildKey(app, HpaSuffix);
      && dk in c.deployments
      && c.deployments[dk].spec == DeploymentReconciler.DesiredDeployment(app, build).spec
      && hk in c.hpas
      && c.hpas[hk].spec == HpaReconciler.DesiredHpa(app, build).spec
    ensures var q := Reconcile(req, c, build, o);
      && (forall w <- q.writes :: w.UpdateStatus?)
      && q.cluster == c.(apps := q.cluster.apps)
  {
    var app := c.apps[req];
    var s1 := DeploymentReconciler.ReconcileDeployment(app, c, build, o.deployment);
    DeploymentReconciler.DeploymentSpecSettledOnlyMirrors(app, c, build, o.deployment);
    FirstStepFrame(app, c, build, o.deployment);
    HpaReconciler.HpaSpecSettledOnlyMirrors(s1.app, s1.cluster, build, o.hpa);
    ReconcileSteps(req, c, build, o);
  }

  /** Settling: after a reconcile that returned no error, the next reconcile
      whose App fetch, owner steps and Gets succeed leaves every child object
      alone and writes nothing but the App status. */
  lemma ReconcileSettles(req: NamespacedName, c: Cluster, build: Builder, o: Oracle, o': Oracle)
    requires o.getApp.None? && Reconcile(req, c, build, o).err.None?
    requires o'.getApp.None? && o'.deployment.owner.None? && o'.deployment.get.None?
    requires o'.hpa.owner.None? && o'.hpa.get.None?
    ensures var p := Reconcile(req, c, build, o);
      var q := Reconcile(req, p.cluster, build, o');
      && (forall w <- q.writes :: w.UpdateStatus?)
      && q.cluster == p.cluster.(apps := q.cluster.apps)
  {
    var p := Reconcile(req, c, build, o);
    if req in c.apps {
      var app := c.apps[req];
      ReconcileConverges(req, c, build, o);
      ReconcileKeepsAppSpecs(req, c, build, o);
      var app' := p.cluster.apps[req];
      assert app'.meta == app.meta && app'.spec == app.spec;
      assert ChildKey(app', DeploySuffix) == ChildKey(app, DeploySuffix);
      assert ChildKey(app', HpaSuffix) == ChildKey(app, HpaSuffix);
      assert DeploymentReconciler.DesiredDeployment(app', build) == DeploymentReconciler.DesiredDeployment(app, build);
      assert HpaReconciler.DesiredHpa(app', build) == HpaReconciler.DesiredHpa(app, build);
      ConvergedReconcileOnlyMirrors(req, p.cluster, build, o');
    }
  }

  /** A fresh App, with none of its children present, gets a deployment and
      an autoscaler built from its templates, and nothing else: no service
      and no ingress is created. */
  lemma FreshAppGetsDeploymentAndHpa(req: NamespacedName, c: Cluster, build: Builder)
    requires req in c.apps
    requires var app := c.apps[req];
      ChildKey(app, DeploySuffix) !in c.deployments && ChildKey(app, HpaSuffix) !in c.hpas
    ensures var app := c.apps[req];
      var dk, hk := ChildKey(app, DeploySuffix), ChildKey(app, HpaSuffix);
      var d, h := DeploymentReconciler.DesiredDeployment(app, build), HpaReconciler.DesiredHpa(app, build);
      Reconcile(req, c, build, NoOracle)
        == Pass(c.(deployments := c.deployments[dk := d], hpas := c.hpas[hk := h]),
                [Create(dk, DeploymentObject(d)), Create(hk, HpaObject(h))], Done, None)
  {
    var app := c.apps[req];
    var s1 := DeploymentReconciler.ReconcileDeployment(app, c, build, NoFaults);
    ReconcileSteps(req, c, build, NoOracle);
    DeploymentReconciler.DeploymentMissing(app, c, build, NoFaults);
    FirstStepFrame(app, c, build, NoFaults);
    HpaReconciler.HpaMissing(s1.app, s1.cluster, build, NoFaults);
  }
}

=== FILE: deployment.dfy ===
/** The workload reconciler: creates the App's deployment when it is missing,
    overwrites its spec when it drifts from the template, and mirrors its
    status into `status.deploymentStatus`. */
module DeploymentReconciler {
  import opened Kube
  import opened AppTypes
  import opened Base
  import opened Client

  /** `utils.NewDeployment(app)` with the App set as controller. */
  function DesiredDeployment(app: App, build: Builder): Deployment
  {
    Own(build.deployment(Key(app), app.spec), app)
  }

  /** The status step: the App's mirror is refreshed from the live status
      and persisted, unless the two are already deeply equal. */
  function MirrorDeploymentStatus(app: App, c: Cluster, writes: seq<Write>, live: DeploymentStatus, fault: Option<Error>): (s: Step)
    ensures s.app == app.(status := app.status.(deploymentStatus := live))
    ensures Consistent(s) && s.cluster == c.(apps := s.cluster.apps)
    ensures live == app.status.deploymentStatus ==> s == Step(app, c, writes, Done, None)
    ensures live != app.status.deploymentStatus ==>
      && s.writes == writes + [UpdateStatus(Key(app), s.app.status)]
      && s.cluster == Perform(c, UpdateStatus(Key(app), s.app.status), fault).cluster
  {
    if DeepEqual(DeploymentStatusValue(live), DeploymentStatusValue(app.status.deploymentStatus)) then
      Step(app, c, writes, Done, None)
    else
      PersistStatus(app.(status := app.status.(deploymentStatus := live)), c, writes, fault)
  }

  /** The branch taken when the deployment exists: the spec is overwritten
      with the template's when they differ, then the status is mirrored. */
  function SyncDeployment(app: App, c: Cluster, key: NamespacedName, desired: Deployment, live: Deployment, f: Faults): (s: Step)
    requires key in c.deployments && c.deployments[key] == live
    ensures Consistent(s) && |s.writes| <= 2
    ensures live.spec == desired.spec <==> forall w <- s.writes :: !w.Update?
    ensures live.spec != desired.spec ==> s.writes[0] == Update(key, DeploymentObject(desired))
    ensures s.err.None? ==> key in s.cluster.deployments && s.cluster.deployments[key].spec == desired.spec
    // the live status is never written through the main resource
    ensures key in s.cluster.deployments && s.cluster.deployments[key].status == live.status
  {
    if !DeepEqual(DeploymentSpecValue(live.spec), DeploymentSpecValue(desired.spec)) then
      var w := Update(key, DeploymentObject(desired));
      var p := Perform(c, w, f.write);
      if p.err.Some? then Step(app, p.cluster, [w], RetryLater, p.err)
      else MirrorDeploymentStatus(app, p.cluster, [w], live.status, f.status)
    else MirrorDeploymentStatus(app, c, [], live.status, f.status)
  }

  /** A failed update returns before the App status is touched. */
  lemma SyncDeploymentUpdateFails(app: App, c: Cluster, key: NamespacedName, desired: Deployment, live: Deployment, f: Faults)
    requires key in c.deployments && c.deployments[key] == live
    requires live.spec != desired.spec && f.write.Some?
    ensures SyncDeployment(app, c, key, desired, live, f)
         == Step(app, c, [Update(key, DeploymentObject(desired))], RetryLater, f.write)
  {
  }

  /** Once the spec is settled, the App's deployment mirror holds the live
      status, and a status write is issued exactly when the two differed. No
      other field of the App changes. */
  lemma SyncDeploymentMirrorsStatus(app: App, c: Cluster, key: NamespacedName, desired: Deployment, live: Deployment, f: Faults)
    requires key in c.deployments && c.deployments[key] == live
    requires live.spec == desired.spec || f.write.None?
    ensures var s := SyncDeployment(app, c, key, desired, live, f);
      && s.app == app.(status := app.status.(deploymentStatus := live.status))
      && (live.status != app.status.deploymentStatus <==>
            |s.writes| > 0 && s.writes[|s.writes| - 1] == UpdateStatus(Key(app), s.app.status))
  {
  }

  /** `reconcileDeployment`. */
  function ReconcileDeployment(app: App, c: Cluster, build: Builder, f: Faults): (s: Step)
    ensures Consistent(s) && |s.writes| <= 2
    ensures f.owner.Some? ==> s == Step(app, c, [], RetryLater, f.owner)
    // convergence: a pass that returns no error leaves the desired spec in place
    ensures s.err.None? ==>
      var key := ChildKey(app, DeploySuffix);
      key in s.cluster.deployments && s.cluster.deployments[key].spec == DesiredDeployment(app, build).spec
  {
    var key := ChildKey(app, DeploySuffix);
    var desired := DesiredDeployment(app, build);
    if f.owner.Some? then Step(app, c, [], RetryLater, f.owner)
    else match Get(c.deployments, key, f.get)
      case Ok(live) => SyncDeployment(app, c, key, desired, live, f)
      case Err(e) =>
        if e != NotFound then Step(app, c, [], RetryLater, Some(e))
        else
          var w := Create(key, DeploymentObject(desired));
          var p := Perform(c, w, f.write);
          Step(app, p.cluster, [w], if p.err.Some? then RetryLater else Done, p.err)
  }

  /** A failed Get other than NotFound returns the error with nothing written. */
  lemma DeploymentGetFails(app: App, c: Cluster, build: Builder, f: Faults)
    requires f.owner.None? && f.get.Some? && f.get.value != NotFound
    ensures ReconcileDeployment(app, c, build, f) == Step(app, c, [], RetryLater, f.get)
  {
  }

  /** A missing deployment is created from the template, once, and nothing
      else is written. */
  lemma DeploymentMissing(app: App, c: Cluster, build: Builder, f: Faults)
    requires f.owner.None?
    requires Get(c.deployments, ChildKey(app, DeploySuffix), f.get) == Err(NotFound)
    ensures var s := ReconcileDeployment(app, c, build, f);
      var key, desired := ChildKey(app, DeploySuffix), DesiredDeployment(app, build);
      && s.app == app
      && s.writes == [Create(key, DeploymentObject(desired))]
      && (s.err.None? ==> s.cluster.deployments == c.deployments[key := desired])
  {
  }

  /** An existing deployment goes through the sync branch. */
  lemma DeploymentFound(app: App, c: Cluster, build: Builder, f: Faults)
    requires f.owner.None? && f.get.None? && ChildKey(app, DeploySuffix) in c.deployments
    ensures var key := ChildKey(app, DeploySuffix);
      ReconcileDeployment(app, c, build, f)
        == SyncDeployment(app, c, key, DesiredDeployment(app, build), c.deployments[key], f)
  {
  }

  /** What a pass may change: it writes only its own kind and the App
      status, every child it writes is controlled by the App, other kinds are
      untouched, and of the App only the deployment mirror can change. */
  ghost predicate DeploymentFramed(app: App, c: Cluster, s: Step)
  {
    && (forall w <- s.writes :: Touches(w, DeploymentKind) || w == UpdateStatus(Key(app), s.app.status))
    && (forall w <- s.writes :: (w.Create? || w.Update?) ==>
          w.obj.DeploymentObject? && w.obj.deployment.controller == Some(Key(app)))
    && (forall k :: k != DeploymentKind ==> KindUnchanged(c, s.cluster, k))
    && s.app.meta == app.meta && s.app.spec == app.spec
    && s.app.status.(deploymentStatus := app.status.deploymentStatus) == app.status
  }

  lemma SyncDeploymentFrame(app: App, c: Cluster, key: NamespacedName, desired: Deployment, live: Deployment, f: Faults)
    requires key in c.deployments && c.deployments[key] == live
    requires desired.controller == Some(Key(app))
    ensures DeploymentFramed(app, c, SyncDeployment(app, c, key, desired, live, f))
  {
    if live.spec == desired.spec {
      DeploymentSpecKeptFrame(app, c, key, desired, live, f);
    } else if f.write.Some? {
      DeploymentUpdateFailedFrame(app, c, key, desired, live, f);
    } else {
      DeploymentUpdatedFrame(app, c, key, desired, live, f);
    }
  }

  lemma DeploymentSpecKeptFrame(app: App, c: Cluster, key: NamespacedName, desired: Deployment, live: Deployment, f: Faults)
    requires key in c.deployments && c.deployments[key] == live
    requires desired.controller == Some(Key(app))
    requires live.spec == desired.spec
    ensures DeploymentFramed(app, c, SyncDeployment(app, c, key, desired, live, f))
  {
    assert SyncDeployment(app, c, key, desired, live, f) == MirrorDeploymentStatus(app, c, [], live.status, f.status);
  }

  lemma DeploymentUpdateFailedFrame(app: App, c: Cluster, key: NamespacedName, desired: Deployment, live: Deployment, f: Faults)
    requires key in c.deployments && c.deployments[key] == live
    requires desired.controller == Some(Key(app))
    requires live.spec != desired.spec && f.write.Some?
    ensures DeploymentFramed(app, c, SyncDeployment(app, c, key, desired, live, f))
  {
    assert SyncDeployment(app, c, key, desired, live, f) == Step(app, c, [Update(key, DeploymentObject(desired))], RetryLater, f.write);
  }

  lemma DeploymentUpdatedFrame(app: App, c: Cluster, key: NamespacedName, desired: Deployment, live: Deployment, f: Faults)
    requires key in c.deployments && c.deployments[key] == live
    requires desired.controller == Some(Key(app))
    requires live.spec != desired.spec && f.write.None?
    ensures DeploymentFramed(app, c, SyncDeployment(app, c, key, desired, live, f))
  {
    var c' := Perform(c, Update(key, DeploymentObject(desired)), None).cluster;
    assert c' == c.(deployments := c'.deployments);
    assert SyncDeployment(app, c, key, desired, live, f) == MirrorDeploymentStatus(app, c', [Update(key, DeploymentObject(desired))], live.status, f.status);
  }

  lemma DeploymentFrame(app: App, c: Cluster, build: Builder, f: Faults)
    ensures DeploymentFramed(app, c, ReconcileDeployment(app, c, build, f))
  {
    var key := ChildKey(app, DeploySuffix);
    if f.owner.None? && f.get.None? && key in c.deployments {
      DeploymentFound(app, c, build, f);
      SyncDeploymentFrame(app, c, key, DesiredDeployment(app, build), c.deployments[key], f);
    }
  }

  /** Idempotence: with the spec converged and the status already mirrored,
      a pass whose owner step and Get succeed issues no writes. */
  lemma DeploymentIdempotent(app: App, c: Cluster, build: Builder, f: Faults)
    requires f.owner.None? && f.get.None?
    requires var key := ChildKey(app, DeploySuffix);
      && key in c.deployments
      && c.deployments[key].spec == DesiredDeployment(app, build).spec
      && c.deployments[key].status == app.status.deploymentStatus
    ensures ReconcileDeployment(app, c, build, f) == Step(app, c, [], Done, None)
  {
  }

  /** With the spec converged, a pass whose owner step and Get succeed leaves
      every child object alone and writes at most the App status, exactly
      when the live status differs from the mirror. */
  lemma DeploymentSpecSettledOnlyMirrors(app: App, c: Cluster, build: Builder, f: Faults)
    requires f.owner.None? && f.get.None?
    requires var key := ChildKey(app, DeploySuffix);
      key in c.deployments && c.deployments[key].spec == DesiredDeployment(app, build).spec
    ensures var s := ReconcileDeployment(app, c, build, f);
      var live := c.deployments[ChildKey(app, DeploySuffix)].status;
      && s.writes == (if live == app.status.deploymentStatus then [] else [UpdateStatus(Key(app), s.app.status)])
      && s.cluster == c.(apps := s.cluster.apps)
  {
    DeploymentFound(app, c, build, f);
  }

  /** The cluster changes by exactly the writes the pass logs. */
  lemma DeploymentLogAccountsFor(app: App, c: Cluster, build: Builder, f: Faults)
    ensures LogAccountsFor(c, ReconcileDeployment(app, c, build, f))
  {
    var key := ChildKey(app, DeploySuffix);
    var desired := DesiredDeployment(app, build);
    if f.owner.None? {
      match Get(c.deployments, key, f.get)
      case Ok(live) =>
        SyncDeploymentLogAccountsFor(app, c, key, desired, live, f);
      case Err(e) =>
        if e == NotFound {
          ReplayOne(c, Create(key, DeploymentObject(desired)));
        }
    }
  }

  lemma SyncDeploymentLogAccountsFor(app: App, c: Cluster, key: NamespacedName, desired: Deployment, live: Deployment, f: Faults)
    requires key in c.deployments && c.deployments[key] == live
    ensures LogAccountsFor(c, SyncDeployment(app, c, key, desired, live, f))
  {
    var s := SyncDeployment(app, c, key, desired, live, f);
    var app' := app.(status := app.status.(deploymentStatus := live.status));
    var u := UpdateStatus(Key(app'), app'.status);
    if live.spec != desired.spec {
      var w := Update(key, DeploymentObject(desired));
      var c' := Perform(c, w, None).cluster;
      ReplayOne(c, w);
      if f.write.Some? {
        assert s.writes == [w] && s.cluster == c;
      } else if live.status == app.status.deploymentStatus {
        assert s.writes == [w] && s.cluster == c';
      } else {
        assert s.writes == [w, u] && s.writes[..1] == [w];
        ReplayTwo(c, w, u);
        if f.status.Some? {
          assert s.cluster == c';
        } else {
          assert s.cluster == Perform(c', u, None).cluster;
        }
      }
    } else if live.status != app.status.deploymentStatus {
      assert s.writes == [u];
      ReplayOne(c, u);
    }
  }

  /** After a pass that found the deployment and returned no error, the next
      pass whose owner step and Get succeed writes nothing. */
  lemma DeploymentSettles(app: App, c: Cluster, build: Builder, f: Faults, f': Faults)
    requires f.owner.None? && f.get.None? && ChildKey(app, DeploySuffix) in c.deployments
    requires ReconcileDeployment(app, c, build, f).err.None?
    requires f'.owner.None? && f'.get.None?
    ensures var s := ReconcileDeployment(app, c, build, f);
      ReconcileDeployment(s.app, s.cluster, build, f') == Step(s.app, s.cluster, [], Done, None)
  {
    var s := ReconcileDeployment(app, c, build, f);
    var key := ChildKey(app, DeploySuffix);
    var desired := DesiredDeployment(app, build);
    var live := c.deployments[key];
    DeploymentFound(app, c, build, f);
    DeploymentFrame(app, c, build, f);
    SyncDeploymentMirrorsStatus(app, c, key, desired, live, f);
    assert ChildKey(s.app, DeploySuffix) == key && DesiredDeployment(s.app, build) == desired;
    DeploymentIdempotent(s.app, s.cluster, build, f');
  }

  /** Convergence: from any cluster, two passes that return no error leave
      the deployment in a state where the next pass writes nothing. */
  lemma DeploymentConverges(app: App, c: Cluster, build: Builder, f1: Faults, f2: Faults, f3: Faults)
    requires ReconcileDeployment(app, c, build, f1).err.None?
    requires var s1 := ReconcileDeployment(app, c, build, f1);
      f2.owner.None? && f2.get.None? && ReconcileDeployment(s1.app, s1.cluster, build, f2).err.None?
    requires f3.owner.None? && f3.get.None?
    ensures var s1 := ReconcileDeployment(app, c, build, f1);
      var s2 := ReconcileDeployment(s1.app, s1.cluster, build, f2);
      ReconcileDeployment(s2.app, s2.cluster, build, f3).writes == []
  {
    var s1 := ReconcileDeployment(app, c, build, f1);
    DeploymentFrame(app, c, build, f1);
    assert ChildKey(s1.app, DeploySuffix) == ChildKey(app, DeploySuffix);
    DeploymentSettles(s1.app, s1.cluster, build, f2, f3);
  }
}

=== FILE: events.dfy ===
/** The watch filters registered with the controller manager. An event that
    a filter rejects never reaches `Reconcile`. The App filter admits creates
    and those updates that change the deployment part of the spec; the
    filters on the owned deployments and autoscalers admit deletes and those
    updates that change the child's spec. */
module Events {
  import opened Kube
  import opened AppTypes

  /** A watch event. An update carries the object before and after. */
  datatype Event<O> = CreateEvent(obj: O) | UpdateEvent(before: O, after: O) | DeleteEvent(obj: O)

  /** An owned child as the watch delivers it: its resource version, spec
      and status. */
  datatype Watched<S, T> = Watched(resourceVersion: string, spec: S, status: T)

  /** The filter on App events. */
  predicate AppPredicate(e: Event<App>)
  {
    match e
    case CreateEvent(_) => true
    case DeleteEvent(_) => false
    case UpdateEvent(before, after) =>
      if after.meta.resourceVersion == before.meta.resourceVersion then false
      else if after.spec.deployment == before.spec.deployment then false
      else true
  }

  /** The filter on owned deployments and on owned autoscalers; the two are
      written identically. */
  predicate OwnedPredicate<S(==), T>(e: Event<Watched<S, T>>)
  {
    match e
    case CreateEvent(_) => false
    case DeleteEvent(_) => true
    case UpdateEvent(before, after) =>
      if after.resourceVersion == before.resourceVersion then false
      else if after.spec == before.spec then false
      else true
  }

  /** Which App events start a reconcile: every create, no delete, and an
      update exactly when it is a real change (a new resource version) to the
      deployment part of the spec. */
  lemma AppPredicateAdmits(e: Event<App>)
    ensures AppPredicate(e) <==>
      || e.CreateEvent?
      || (e.UpdateEvent? && e.before.meta.resourceVersion != e.after.meta.resourceVersion
            && e.before.spec.deployment != e.after.spec.deployment)
  {
  }

  /** A status-only write to an App, the only kind of App write the
      controller makes, never triggers another reconcile. */
  lemma StatusOnlyAppUpdateDropped(before: App, after: App)
    requires after.spec == before.spec
    ensures !AppPredicate(UpdateEvent(before, after))
  {
  }

  /** Edits to an App's service or ingress settings, or to its annotations,
      never trigger a reconcile on their own. */
  lemma ServiceAndIngressEditsDropped(before: App, after: App)
    requires after.spec.deployment == before.spec.deployment
    ensures !AppPredicate(UpdateEvent(before, after))
  {
  }

  /** Which child events start a reconcile of the owner: every delete, no
      create, and an update exactly when it is a real change of the spec. */
  lemma OwnedPredicateAdmits<S, T>(e: Event<Watched<S, T>>)
    ensures OwnedPredicate(e) <==>
      || e.DeleteEvent?
      || (e.UpdateEvent? && e.before.resourceVersion != e.after.resourceVersion
            && e.before.spec != e.after.spec)
  {
  }

  /** A child whose status alone changed does not trigger the owner, so a
      status change on the cluster side does not refresh the App's mirror
      until something else triggers a reconcile. */
  lemma ChildStatusOnlyUpdateDropped<S, T>(before: Watched<S, T>, after: Watched<S, T>)
    requires after.spec == before.spec
    ensures !OwnedPredicate(UpdateEvent(before, after))
  {
  }

  /** A periodic resync redelivers an object with its resource version
      unchanged; neither filter lets it through. */
  lemma ResyncDropped<S, T>(a: App, a': App, w: Watched<S, T>, w': Watched<S, T>)
    requires a.meta.resourceVersion == a'.meta.resourceVersion
    requires w.resourceVersion == w'.resourceVersion
    ensures !AppPredicate(UpdateEvent(a, a')) && !OwnedPredicate(UpdateEvent(w, w'))
  {
  }
}

=== FILE: hpa.dfy ===
/** The autoscaler reconciler: creates the App's HorizontalPodAutoscaler when
    it is missing and overwrites its spec when it drifts from the template.
    Its status step compares the live status with the status held by the
    template object, not with the App's mirror, and copies the live status
    into `status.hpaStatus` when those two differ. The client writes the
    server's reply back into the object it is given, so after a successful
    spec update the template object holds the status the server kept, which
    is the live status: a pass that updates the spec never writes the App
    status. */
module HpaReconciler {
  import opened Kube
  import opened AppTypes
  import opened Base
  import opened Client

  /** `utils.NewHorizontalPodAutoscaler(app)` with the App set as controller. */
  function DesiredHpa(app: App, build: Builder): Hpa
  {
    Own(build.hpa(Key(app), app.spec), app)
  }

  /** The status step: the live status is compared with the status the
      template object holds at that point (its rendered status when the spec
      was kept, the status returned by the update otherwise). */
  function MirrorHpaStatus(app: App, c: Cluster, writes: seq<Write>, live: HpaStatus, yardstick: HpaStatus, fault: Option<Error>): (s: Step)
    ensures Consistent(s) && s.cluster == c.(apps := s.cluster.apps)
    ensures live == yardstick ==> s == Step(app, c, writes, Done, None)
    ensures live != yardstick ==>
      && s.app == app.(status := app.status.(hpaStatus := live))
      && s.writes == writes + [UpdateStatus(Key(app), s.app.status)]
      && s.cluster == Perform(c, UpdateStatus(Key(app), s.app.status), fault).cluster
  {
    if DeepEqual(HpaStatusValue(live), HpaStatusValue(yardstick)) then
      Step(app, c, writes, Done, None)
    else
      PersistStatus(app.(status := app.status.(hpaStatus := live)), c, writes, fault)
  }

  /** The branch taken when the autoscaler exists. After a successful update
      the yardstick is the status of the object the update returned. */
  function SyncHpa(app: App, c: Cluster, key: NamespacedName, desired: Hpa, live: Hpa, f: Faults): (s: Step)
    requires key in c.hpas && c.hpas[key] == live
    ensures Consistent(s) && |s.writes| <= 1
    ensures live.spec == desired.spec <==> forall w <- s.writes :: !w.Update?
    ensures live.spec != desired.spec ==> s.app == app && s.writes == [Update(key, HpaObject(desired))]
    ensures s.err.None? ==> key in s.cluster.hpas && s.cluster.hpas[key].spec == desired.spec
    ensures key in s.cluster.hpas && s.cluster.hpas[key].status == live.status
  {
    if !DeepEqual(HpaSpecValue(live.spec), HpaSpecValue(desired.spec)) then
      var w := Update(key, HpaObject(desired));
      var p := Perform(c, w, f.write);
      if p.err.Some? then Step(app, p.cluster, [w], RetryLater, p.err)
      else MirrorHpaStatus(app, p.cluster, [w], live.status, p.cluster.hpas[key].status, f.status)
    else MirrorHpaStatus(app, c, [], live.status, desired.status, f.status)
  }

  /** A failed update returns before any status write. */
  lemma SyncHpaUpdateFails(app: App, c: Cluster, key: NamespacedName, desired: Hpa, live: Hpa, f: Faults)
    requires key in c.hpas && c.hpas[key] == live
    requires live.spec != desired.spec && f.write.Some?
    ensures SyncHpa(app, c, key, desired, live, f)
         == Step(app, c, [Update(key, HpaObject(desired))], RetryLater, f.write)
  {
  }

  /** The status step, branch by branch. When the spec was kept, a status
      write happens exactly when the live status differs from the template's
      status, whatever the App's mirror holds; when it happens the mirror
      receives the live status, and a failed write is returned with the
      generic requeue. When the spec was updated, the returned status is the
      live one, so the pass ends after the update with nothing more written,
      even when the live status differs from the template's. */
  lemma SyncHpaStatusStep(app: App, c: Cluster, key: NamespacedName, desired: Hpa, live: Hpa, f: Faults)
    requires key in c.hpas && c.hpas[key] == live
    requires live.spec == desired.spec || f.write.None?
    ensures var s := SyncHpa(app, c, key, desired, live, f);
      && (live.spec == desired.spec ==>
            && (live.status != desired.status <==> s.writes == [UpdateStatus(Key(app), s.app.status)])
            && (live.status != desired.status ==> s.app == app.(status := app.status.(hpaStatus := live.status)))
            && (live.status == desired.status ==> s == Step(app, c, [], Done, None))
            && (live.status != desired.status && f.status.Some? ==> s.err == f.status && s.result == RetryLater))
      && (live.spec != desired.spec ==>
            s == Step(app, c.(hpas := c.hpas[key := live.(controller := desired.controller, spec := desired.spec)]),
                      [Update(key, HpaObject(desired))], Done, None))
  {
  }

  /** `reconcileHorizontalPodAutoscaler`. */
  function ReconcileHpa(app: App, c: Cluster, build: Builder, f: Faults): (s: Step)
    ensures Consistent(s) && |s.writes| <= 1
    ensures f.owner.Some? ==> s == Step(app, c, [], RetryLater, f.owner)
    ensures s.err.None? ==>
      var key := ChildKey(app, HpaSuffix);
      key in s.cluster.hpas && s.cluster.hpas[key].spec == DesiredHpa(app, build).spec
  {
    var key := ChildKey(app, HpaSuffix);
    var desired := DesiredHpa(app, build);
    if f.owner.Some? then Step(app, c, [], RetryLater, f.owner)
    else match Get(c.hpas, key, f.get)
      case Ok(live) => SyncHpa(app, c, key, desired, live, f)
      case Err(e) =>
        if e != NotFound then Step(app, c, [], RetryLater, Some(e))
        else
          var w := Create(key, HpaObject(desired));
          var p := Perform(c, w, f.write);
          Step(app, p.cluster, [w], if p.err.Some? then RetryLater else Done, p.err)
  }

  /** A failed Get other than NotFound returns the error with nothing written. */
  lemma HpaGetFails(app: App, c: Cluster, build: Builder, f: Faults)
    requires f.owner.None? && f.get.Some? && f.get.value != NotFound
    ensures ReconcileHpa(app, c, build, f) == Step(app, c, [], RetryLater, f.get)
  {
  }

  /** A missing autoscaler is created from the template, once, and the App is
      not touched on this path. */
  lemma HpaMissing(app: App, c: Cluster, build: Builder, f: Faults)
    requires f.owner.None?
    requires Get(c.hpas, ChildKey(app, HpaSuffix), f.get) == Err(NotFound)
    ensures var s := ReconcileHpa(app, c, build, f);
      var key, desired := ChildKey(app, HpaSuffix), DesiredHpa(app, build);
      && s.app == app
      && s.writes == [Create(key, HpaObject(desired))]
      && (s.err.None? ==> s.cluster.hpas == c.hpas[key := desired])
  {
  }

  /** An existing autoscaler goes through the sync branch. */
  lemma HpaFound(app: App, c: Cluster, build: Builder, f: Faults)
    requires f.owner.None? && f.get.None? && ChildKey(app, HpaSuffix) in c.hpas
    ensures var key := ChildKey(app, HpaSuffix);
      ReconcileHpa(app, c, build, f) == SyncHpa(app, c, key, DesiredHpa(app, build), c.hpas[key], f)
  {
  }

  /** What a pass may change: only its own kind and the App status are
      written, children carry the App as controller, other kinds are
      untouched, and of the App only the autoscaler mirror can change. */
  ghost predicate HpaFramed(app: App, c: Cluster, s: Step)
  {
    && (forall w <- s.writes :: Touches(w, HpaKind) || w == UpdateStatus(Key(app), s.app.status))
    && (forall w <- s.writes :: (w.Create? || w.Update?) ==>
          w.obj.HpaObject? && w.obj.hpa.controller == Some(Key(app)))
    && (forall k :: k != HpaKind ==> KindUnchanged(c, s.cluster, k))
    && s.app.meta == app.meta && s.app.spec == app.spec
    && s.app.status.(hpaStatus := app.status.hpaStatus) == app.status
  }

  lemma SyncHpaFrame(app: App, c: Cluster, key: NamespacedName, desired: Hpa, live: Hpa, f: Faults)
    requires key in c.hpas && c.hpas[key] == live
    requires desired.controller == Some(Key(app))
    ensures HpaFramed(app, c, SyncHpa(app, c, key, desired, live, f))
  {
    if live.spec == desired.spec {
      HpaSpecKeptFrame(app, c, key, desired, live, f);
    } else if f.write.Some? {
      HpaUpdateFailedFrame(app, c, key, desired, live, f);
    } else {
      HpaUpdatedFrame(app, c, key, desired, live, f);
    }
  }

  lemma HpaSpecKeptFrame(app: App, c: Cluster, key: NamespacedName, desired: Hpa, live: Hpa, f: Faults)
    requires key in c.hpas && c.hpas[key] == live
    requires desired.controller == Some(Key(app))
    requires live.spec == desired.spec
    ensures HpaFramed(app, c, SyncHpa(app, c, key, desired, live, f))
  {
    assert SyncHpa(app, c, key, desired, live, f) == MirrorHpaStatus(app, c, [], live.status, desired.status, f.status);
  }

  lemma HpaUpdateFailedFrame(app: App, c: Cluster, key: NamespacedName, desired: Hpa, live: Hpa, f: Faults)
    requires key in c.hpas && c.hpas[key] == live
    requires desired.controller == Some(Key(app))
    requires live.spec != desired.spec && f.write.Some?
    ensures HpaFramed(app, c, SyncHpa(app, c, key, desired, live, f))
  {
    assert SyncHpa(app, c, key, desired, live, f) == Step(app, c, [Update(key, HpaObject(desired))], RetryLater, f.write);
  }

  lemma HpaUpdatedFrame(app: App, c: Cluster, key: NamespacedName, desired: Hpa, live: Hpa, f: Faults)
    requires key in c.hpas && c.hpas[key] == live
    requires desired.controller == Some(Key(app))
    requires live.spec != desired.spec && f.write.None?
    ensures HpaFramed(app, c, SyncHpa(app, c, key, desired, live, f))
  {
    var w := Update(key, HpaObject(desired));
    var c' := Perform(c, w, None).cluster;
    assert c' == c.(hpas := c'.hpas);
    assert SyncHpa(app, c, key, desired, live, f) == Step(app, c', [w], Done, None);
  }

  lemma HpaFrame(app: App, c: Cluster, build: Builder, f: Faults)
    ensures HpaFramed(app, c, ReconcileHpa(app, c, build, f))
  {
    var key := ChildKey(app, HpaSuffix);
    if f.owner.None? && f.get.None? && key in c.hpas {
      HpaFound(app, c, build, f);
      SyncHpaFrame(app, c, key, DesiredHpa(app, build), c.hpas[key], f);
    }
  }

  /** With the spec converged and the live status equal to the template's,
      a pass whose owner step and Get succeed writes nothing, even when the App's mirror is stale: the mirror
      is then never refreshed. */
  lemma HpaQuietWhileMirrorStale(app: App, c: Cluster, build: Builder, f: Faults)
    requires f.owner.None? && f.get.None?
    requires var key := ChildKey(app, HpaSuffix);
      && key in c.hpas
      && c.hpas[key].spec == DesiredHpa(app, build).spec
      && c.hpas[key].status == DesiredHpa(app, build).status
    ensures ReconcileHpa(app, c, build, f) == Step(app, c, [], Done, None)
  {
  }

  /** With the spec converged and the live status differing from the
      template's, every pass that keeps the spec persists the App status
      again, even one that follows a pass which already mirrored it. (A pass
      that updates a drifted spec writes no status; see `SyncHpaStatusStep`.) */
  lemma HpaStatusWriteRepeats(app: App, c: Cluster, build: Builder)
    requires Key(app) in c.apps
    requires var key := ChildKey(app, HpaSuffix);
      && key in c.hpas
      && c.hpas[key].spec == DesiredHpa(app, build).spec
      && c.hpas[key].status != DesiredHpa(app, build).status
    ensures var s1 := ReconcileHpa(app, c, build, NoFaults);
      var s2 := ReconcileHpa(s1.app, s1.cluster, build, NoFaults);
      && s1.err.None? && |s1.writes| == 1 && s1.writes[0].UpdateStatus?
      && s2.err.None? && |s2.writes| == 1 && s2.writes[0].UpdateStatus?
  {
    var key := ChildKey(app, HpaSuffix);
    var s1 := ReconcileHpa(app, c, build, NoFaults);
    HpaFound(app, c, build, NoFaults);
    HpaFrame(app, c, build, NoFaults);
    assert s1.writes == [UpdateStatus(Key(app), s1.app.status)];
    assert ChildKey(s1.app, HpaSuffix) == key && DesiredHpa(s1.app, build) == DesiredHpa(app, build);
    assert s1.cluster.hpas == c.hpas;
    HpaFound(s1.app, s1.cluster, build, NoFaults);
  }

  /** With the spec converged, a pass whose owner step and Get succeed leaves
      every child object alone and writes at most the App status, exactly
      when the live status differs from the template's. */
  lemma HpaSpecSettledOnlyMirrors(app: App, c: Cluster, build: Builder, f: Faults)
    requires f.owner.None? && f.get.None?
    requires var key := ChildKey(app, HpaSuffix);
      key in c.hpas && c.hpas[key].spec == DesiredHpa(app, build).spec
    ensures var s := ReconcileHpa(app, c, build, f);
      var live := c.hpas[ChildKey(app, HpaSuffix)].status;
      && s.writes == (if live == DesiredHpa(app, build).status then [] else [UpdateStatus(Key(app), s.app.status)])
      && s.cluster == c.(apps := s.cluster.apps)
  {
    HpaFound(app, c, build, f);
  }

  /** The cluster changes by exactly the writes the pass logs. */
  lemma HpaLogAccountsFor(app: App, c: Cluster, build: Builder, f: Faults)
    ensures LogAccountsFor(c, ReconcileHpa(app, c, build, f))
  {
    var key := ChildKey(app, HpaSuffix);
    var desired := DesiredHpa(app, build);
    if f.owner.None? {
      match Get(c.hpas, key, f.get)
      case Ok(live) =>
        SyncHpaLogAccountsFor(app, c, key, desired, live, f);
      case Err(e) =>
        if e == NotFound {
          ReplayOne(c, Create(key, HpaObject(desired)));
        }
    }
  }

  lemma SyncHpaLogAccountsFor(app: App, c: Cluster, key: NamespacedName, desired: Hpa, live: Hpa, f: Faults)
    requires key in c.hpas && c.hpas[key] == live
    ensures LogAccountsFor(c, SyncHpa(app, c, key, desired, live, f))
  {
    var s := SyncHpa(app, c, key, desired, live, f);
    var app' := app.(status := app.status.(hpaStatus := live.status));
    var u := UpdateStatus(Key(app'), app'.status);
    if live.spec != desired.spec {
      var w := Update(key, HpaObject(desired));
      ReplayOne(c, w);
      if f.write.Some? {
        assert s.writes == [w] && s.cluster == c;
      } else {
        assert s.writes == [w] && s.cluster == Perform(c, w, None).cluster;
      }
    } else if live.status != desired.status {
      assert s.writes == [u];
      ReplayOne(c, u);
    }
  }
}

=== FILE: ingress.dfy ===
/** The ingress-route reconciler. An ingress should exist exactly when the
    App enables it and sets no node port; the same test decides both the
    branch for an existing ingress (update, or delete when the test fails)
    and the branch for a missing one (create, or nothing). Its status step
    compares the live ingress status with the App's stored ingress *spec*
    mirror; those have different types, so the step always fires and copies
    the live ingress spec into the mirror. */
module IngressReconciler {
  import opened Kube
  import opened AppTypes
  import opened Base
  import opened Client

  /** The existence test: ingress enabled and no node port. */
  predicate IngressWanted(spec: AppSpec)
  {
    spec.ingress.isEnable && spec.service.nodePort == 0
  }

  /** `utils.NewIngress(app)` with the App set as controller. */
  function DesiredIngress(app: App, build: Builder): Ingress
  {
    Own(build.ingress(Key(app), app.spec), app)
  }

  /** A status of the ingress kind is never deeply equal to a spec of it. */
  lemma IngressStatusNeverEqualsSpec(status: IngressStatus, spec: IngressSpec)
    ensures !DeepEqual(IngressStatusValue(status), IngressSpecValue(spec))
  {
  }

  /** The status step of a wanted ingress. */
  function MirrorIngress(app: App, c: Cluster, writes: seq<Write>, live: Ingress, fault: Option<Error>): (s: Step)
    ensures Consistent(s) && s.cluster == c.(apps := s.cluster.apps)
    ensures s.app == app.(status := app.status.(ingressSpec := live.spec))
    ensures s.writes == writes + [UpdateStatus(Key(app), s.app.status)]
    ensures s.cluster == Perform(c, UpdateStatus(Key(app), s.app.status), fault).cluster
  {
    if DeepEqual(IngressStatusValue(live.status), IngressSpecValue(app.status.ingressSpec)) then
      Step(app, c, writes, Done, None)
    else
      PersistStatus(app.(status := app.status.(ingressSpec := live.spec)), c, writes, fault)
  }

  /** The branch taken when the ingress exists. */
  function SyncIngress(app: App, c: Cluster, key: NamespacedName, desired: Ingress, live: Ingress, f: Faults): (s: Step)
    requires key in c.ingresses && c.ingresses[key] == live
    ensures Consistent(s) && 1 <= |s.writes| <= 2
    // not wanted: deleted, regardless of the specs, and nothing else
    ensures !IngressWanted(app.spec) ==>
      && s.app == app
      && s.writes == [Delete(IngressKind, key)]
      && (s.err.None? <==> f.write.None?)
      && (s.err.None? ==> s.cluster.ingresses == c.ingresses - {key})
    ensures IngressWanted(app.spec) ==>
      && (forall w <- s.writes :: !w.Delete?)
      && (live.spec == desired.spec <==> forall w <- s.writes :: !w.Update?)
      && (live.spec != desired.spec ==> s.writes[0] == Update(key, IngressObject(desired)))
      && (s.err.None? ==> key in s.cluster.ingresses && s.cluster.ingresses[key].spec == desired.spec)
  {
    if IngressWanted(app.spec) then
      if !DeepEqual(IngressSpecValue(live.spec), IngressSpecValue(desired.spec)) then
        var w := Update(key, IngressObject(desired));
        var p := Perform(c, w, f.write);
        if p.err.Some? then Step(app, p.cluster, [w], RetryLater, p.err)
        else MirrorIngress(app, p.cluster, [w], live, f.status)
      else MirrorIngress(app, c, [], live, f.status)
    else
      var w := Delete(IngressKind, key);
      var p := Perform(c, w, f.write);
      Step(app, p.cluster, [w], if p.err.Some? then RetryLater else Done, p.err)
  }

  /** A failed update of a wanted ingress returns before the App status is
      touched. */
  lemma SyncIngressUpdateFails(app: App, c: Cluster, key: NamespacedName, desired: Ingress, live: Ingress, f: Faults)
    requires key in c.ingresses && c.ingresses[key] == live
    requires IngressWanted(app.spec) && live.spec != desired.spec && f.write.Some?
    ensures SyncIngress(app, c, key, desired, live, f)
         == Step(app, c, [Update(key, IngressObject(desired))], RetryLater, f.write)
  {
  }

  /** Once the spec of a wanted ingress is settled, the live spec is
      mirrored into the App and persisted, on every pass. */
  lemma SyncIngressMirrorsSpec(app: App, c: Cluster, key: NamespacedName, desired: Ingress, live: Ingress, f: Faults)
    requires key in c.ingresses && c.ingresses[key] == live
    requires IngressWanted(app.spec) && (live.spec == desired.spec || f.write.None?)
    ensures var s := SyncIngress(app, c, key, desired, live, f);
      && s.app == app.(status := app.status.(ingressSpec := live.spec))
      && s.writes[|s.writes| - 1] == UpdateStatus(Key(app), s.app.status)
  {
  }

  /** `reconcileIngress`. */
  function ReconcileIngress(app: App, c: Cluster, build: Builder, f: Faults): (s: Step)
    ensures Consistent(s) && |s.writes| <= 2
    ensures f.owner.Some? ==> s == Step(app, c, [], RetryLater, f.owner)
    // an ingress is created or updated only while it is wanted
    ensures forall w <- s.writes :: w.Create? || w.Update? ==> IngressWanted(app.spec)
    // convergence: after a pass with no error the ingress exists exactly when wanted
    ensures s.err.None? && f.get.None? ==>
      (ChildKey(app, IngressSuffix) in s.cluster.ingresses <==> IngressWanted(app.spec))
  {
    var key := ChildKey(app, IngressSuffix);
    var desired := DesiredIngress(app, build);
    if f.owner.Some? then Step(app, c, [], RetryLater, f.owner)
    else match Get(c.ingresses, key, f.get)
      case Ok(live) => SyncIngress(app, c, key, desired, live, f)
      case Err(e) =>
        if e != NotFound then Step(app, c, [], RetryLater, Some(e))
        else if IngressWanted(app.spec) then
          var w := Create(key, IngressObject(desired));
          var p := Perform(c, w, f.write);
          Step(app, p.cluster, [w], if p.err.Some? then RetryLater else Done, p.err)
        else if app.spec.ingress.isEnable && app.spec.service.nodePort != 0 then
          // both set: the service takes effect
          Step(app, c, [], Done, None)
        else Step(app, c, [], Done, None)
  }

  /** A failed Get other than NotFound returns the error with nothing written. */
  lemma IngressGetFails(app: App, c: Cluster, build: Builder, f: Faults)
    requires f.owner.None? && f.get.Some? && f.get.value != NotFound
    ensures ReconcileIngress(app, c, build, f) == Step(app, c, [], RetryLater, f.get)
  {
  }

  /** A missing ingress is created once when wanted; otherwise (disabled, or
      enabled together with a node port) the pass writes nothing and succeeds. */
  lemma IngressMissing(app: App, c: Cluster, build: Builder, f: Faults)
    requires f.owner.None?
    requires Get(c.ingresses, ChildKey(app, IngressSuffix), f.get) == Err(NotFound)
    ensures var s := ReconcileIngress(app, c, build, f);
      var key, desired := ChildKey(app, IngressSuffix), DesiredIngress(app, build);
      && (IngressWanted(app.spec) ==>
            && s.app == app
            && s.writes == [Create(key, IngressObject(desired))]
            && (s.err.None? ==> s.cluster.ingresses == c.ingresses[key := desired]))
      && (!IngressWanted(app.spec) ==> s == Step(app, c, [], Done, None))
  {
  }

  /** An existing ingress goes through the sync branch. */
  lemma IngressFound(app: App, c: Cluster, build: Builder, f: Faults)
    requires f.owner.None? && f.get.None? && ChildKey(app, IngressSuffix) in c.ingresses
    ensures var key := ChildKey(app, IngressSuffix);
      ReconcileIngress(app, c, build, f)
        == SyncIngress(app, c, key, DesiredIngress(app, build), c.ingresses[key], f)
  {
  }

  /** What a pass may change: only its own kind and the App status are
      written, children carry the App as controller, other kinds are
      untouched, and of the App only the ingress mirror can change. */
  ghost predicate IngressFramed(app: App, c: Cluster, s: Step)
  {
    && (forall w <- s.writes :: Touches(w, IngressKind) || w == UpdateStatus(Key(app), s.app.status))
    && (forall w <- s.writes :: (w.Create? || w.Update?) ==>
          w.obj.IngressObject? && w.obj.ingress.controller == Some(Key(app)))
    && (forall k :: k != IngressKind ==> KindUnchanged(c, s.cluster, k))
    && s.app.meta == app.meta && s.app.spec == app.spec
    && s.app.status.(ingressSpec := app.status.ingressSpec) == app.status
  }

  lemma SyncIngressFrame(app: App, c: Cluster, key: NamespacedName, desired: Ingress, live: Ingress, f: Faults)
    requires key in c.ingresses && c.ingresses[key] == live
    requires desired.controller == Some(Key(app))
    ensures IngressFramed(app, c, SyncIngress(app, c, key, desired, live, f))
  {
    if IngressWanted(app.spec) {
      UpdateIngressFrame(app, c, key, desired, live, f);
    } else {
      DeleteIngressFrame(app, c, key, f.write);
    }
  }

  lemma UpdateIngressFrame(app: App, c: Cluster, key: NamespacedName, desired: Ingress, live: Ingress, f: Faults)
    requires key in c.ingresses && c.ingresses[key] == live
    requires desired.controller == Some(Key(app)) && IngressWanted(app.spec)
    ensures IngressFramed(app, c, SyncIngress(app, c, key, desired, live, f))
  {
    if live.spec == desired.spec {
      IngressSpecKeptFrame(app, c, key, desired, live, f);
    } else if f.write.Some? {
      IngressUpdateFailedFrame(app, c, key, desired, live, f);
    } else {
      IngressUpdatedFrame(app, c, key, desired, live, f);
    }
  }

  lemma IngressSpecKeptFrame(app: App, c: Cluster, key: NamespacedName, desired: Ingress, live: Ingress, f: Faults)
    requires key in c.ingresses && c.ingresses[key] == live
    requires desired.controller == Some(Key(app)) && IngressWanted(app.spec)
    requires live.spec == desired.spec
    ensures IngressFramed(app, c, SyncIngress(app, c, key, desired, live, f))
  {
    assert SyncIngress(app, c, key, desired, live, f) == MirrorIngress(app, c, [], live, f.status);
  }

  lemma IngressUpdateFailedFrame(app: App, c: Cluster, key: NamespacedName, desired: Ingress, live: Ingress, f: Faults)
    requires key in c.ingresses && c.ingresses[key] == live
    requires desired.controller == Some(Key(app)) && IngressWanted(app.spec)
    requires live.spec != desired.spec && f.write.Some?
    ensures IngressFramed(app, c, SyncIngress(app, c, key, desired, live, f))
  {
    assert SyncIngress(app, c, key, desired, live, f) == Step(app, c, [Update(key, IngressObject(desired))], RetryLater, f.write);
  }

  lemma IngressUpdatedFrame(app: App, c: Cluster, key: NamespacedName, desired: Ingress, live: Ingress, f: Faults)
    requires key in c.ingresses && c.ingresses[key] == live
    requires desired.controller == Some(Key(app)) && IngressWanted(app.spec)
    requires live.spec != desired.spec && f.write.None?
    ensures IngressFramed(app, c, SyncIngress(app, c, key, desired, live, f))
  {
    var c' := Perform(c, Update(key, IngressObject(desired)), None).cluster;
    assert c' == c.(ingresses := c'.ingresses);
    assert SyncIngress(app, c, key, desired, live, f) == MirrorIngress(app, c', [Update(key, IngressObject(desired))], live, f.status);
  }

  lemma DeleteIngressFrame(app: App, c: Cluster, key: NamespacedName, fault: Option<Error>)
    ensures var p := Perform(c, Delete(IngressKind, key), fault);
      IngressFramed(app, c, Step(app, p.cluster, [Delete(IngressKind, key)], if p.err.Some? then RetryLater else Done, p.err))
  {
    forall k | k != IngressKind
      ensures KindUnchanged(c, Perform(c, Delete(IngressKind, key), fault).cluster, k)
    {
      PerformFrame(c, Delete(IngressKind, key), fault, k);
    }
  }

  lemma IngressFrame(app: App, c: Cluster, build: Builder, f: Faults)
    ensures IngressFramed(app, c, ReconcileIngress(app, c, build, f))
  {
    var key := ChildKey(app, IngressSuffix);
    if f.owner.None? && f.get.None? && key in c.ingresses {
      IngressFound(app, c, build, f);
      SyncIngressFrame(app, c, key, DesiredIngress(app, build), c.ingresses[key], f);
    }
  }

  /** One fault-free pass over a wanted ingress whose spec already matches
      writes the status and nothing else, and leaves that ingress as it was. */
  lemma IngressSettledPass(app: App, c: Cluster, build: Builder)
    requires Key(app) in c.apps && IngressWanted(app.spec)
    requires var key := ChildKey(app, IngressSuffix);
      key in c.ingresses && c.ingresses[key].spec == DesiredIngress(app, build).spec
    ensures var s := ReconcileIngress(app, c, build, NoFaults);
      && s.err.None? && s.writes == [UpdateStatus(Key(app), s.app.status)]
      && s.app.meta == app.meta && s.app.spec == app.spec
      && s.cluster.ingresses == c.ingresses && Key(app) in s.cluster.apps
  {
    var key := ChildKey(app, IngressSuffix);
    var s := ReconcileIngress(app, c, build, NoFaults);
    IngressFound(app, c, build, NoFaults);
    assert s == MirrorIngress(app, c, [], c.ingresses[key], None);
  }

  /** A wanted ingress whose spec already matches still has its status
      persisted on every pass, including the one right after a pass that
      persisted it: the ingress reconciler never goes quiet. */
  lemma IngressStatusWriteRepeats(app: App, c: Cluster, build: Builder)
    requires Key(app) in c.apps && IngressWanted(app.spec)
    requires var key := ChildKey(app, IngressSuffix);
      key in c.ingresses && c.ingresses[key].spec == DesiredIngress(app, build).spec
    ensures var s1 := ReconcileIngress(app, c, build, NoFaults);
      var s2 := ReconcileIngress(s1.app, s1.cluster, build, NoFaults);
      && s1.err.None? && |s1.writes| == 1 && s1.writes[0].UpdateStatus?
      && s2.err.None? && |s2.writes| == 1 && s2.writes[0].UpdateStatus?
  {
    var s1 := ReconcileIngress(app, c, build, NoFaults);
    IngressSettledPass(app, c, build);
    assert Key(s1.app) == Key(app);
    assert ChildKey(s1.app, IngressSuffix) == ChildKey(app, IngressSuffix);
    assert DesiredIngress(s1.app, build).spec == DesiredIngress(app, build).spec;
    IngressSettledPass(s1.app, s1.cluster, build);
  }

  /** The cluster changes by exactly the writes the pass logs. */
  lemma IngressLogAccountsFor(app: App, c: Cluster, build: Builder, f: Faults)
    ensures LogAccountsFor(c, ReconcileIngress(app, c, build, f))
  {
    var key := ChildKey(app, IngressSuffix);
    var desired := DesiredIngress(app, build);
    if f.owner.None? {
      match Get(c.ingresses, key, f.get)
      case Ok(live) =>
        SyncIngressLogAccountsFor(app, c, key, desired, live, f);
      case Err(e) =>
        if e == NotFound && IngressWanted(app.spec) {
          ReplayOne(c, Create(key, IngressObject(desired)));
        }
    }
  }

  lemma SyncIngressLogAccountsFor(app: App, c: Cluster, key: NamespacedName, desired: Ingress, live: Ingress, f: Faults)
    requires key in c.ingresses && c.ingresses[key] == live
    ensures LogAccountsFor(c, SyncIngress(app, c, key, desired, live, f))
  {
    var s := SyncIngress(app, c, key, desired, live, f);
    if !IngressWanted(app.spec) {
      ReplayOne(c, Delete(IngressKind, key));
    } else if live.spec != desired.spec {
      IngressUpdatedLogAccountsFor(app, c, key, desired, live, f);
    } else {
      var app' := app.(status := app.status.(ingressSpec := live.spec));
      var u := UpdateStatus(Key(app'), app'.status);
      assert s.writes == [u];
      ReplayOne(c, u);
    }
  }

  lemma IngressUpdatedLogAccountsFor(app: App, c: Cluster, key: NamespacedName, desired: Ingress, live: Ingress, f: Faults)
    requires key in c.ingresses && c.ingresses[key] == live
    requires IngressWanted(app.spec) && live.spec != desired.spec
    ensures LogAccountsFor(c, SyncIngress(app, c, key, desired, live, f))
  {
    var s := SyncIngress(app, c, key, desired, live, f);
    var app' := app.(status := app.status.(ingressSpec := live.spec));
    var u := UpdateStatus(Key(app'), app'.status);
    var w := Update(key, IngressObject(desired));
    var c' := Perform(c, w, None).cluster;
    ReplayOne(c, w);
    if f.write.Some? {
      assert s.writes == [w] && s.cluster == c;
    } else {
      assert s.writes == [w, u] && s.writes[..1] == [w];
      ReplayTwo(c, w, u);
      if f.status.Some? {
        assert s.cluster == c';
      } else {
        assert s.cluster == Perform(c', u, None).cluster;
      }
    }
  }
}

=== FILE: kube.dfy ===
/** The Kubernetes vocabulary the controller works with: object identities,
    API errors, requeue results, the opaque payloads of the four child kinds,
    deep equality over them, and a typed object store whose calls can be made
    to fail by an injected fault. */
module Kube {

  datatype Option<+T> = None | Some(value: T)

  /** Errors returned by the API server. `NotFound` is the one that
      `errors.IsNotFound` recognises; `Invalid` is a schema violation at
      admission, naming the offending field. */
  datatype Error =
    | NotFound
    | AlreadyExists
    | Invalid(field: string)
    | Failure(message: string)

  datatype Result<+T> = Ok(value: T) | Err(error: Error)

  /** `types.NamespacedName`. */
  datatype NamespacedName = NamespacedName(namespace: string, name: string)

  /** `time.Duration`: a count of nanoseconds. */
  type Duration = int

  const Second: Duration := 1_000_000_000
  const Minute: Duration := 60 * Second

  /** `ctrl.Result`. The controller never sets `Requeue`, so only
      `RequeueAfter` is kept; zero means "do not requeue". */
  datatype ReconcileResult = ReconcileResult(requeueAfter: Duration)

  // Specs and statuses of the child objects. Their contents are not
  // interpreted by the controller: it only copies and compares them.
  type DeploymentSpec(==)
  type DeploymentStatus(==)
  type ServiceSpec(==)
  type ServiceStatus(==)
  type IngressSpec(==)
  type IngressStatus(==)
  type HpaSpec(==)
  type HpaStatus(==)

  /** A payload together with its Go type, which is what `reflect.DeepEqual`
      inspects first. */
  datatype Value =
    | DeploymentSpecValue(deploymentSpec: DeploymentSpec)
    | DeploymentStatusValue(deploymentStatus: DeploymentStatus)
    | ServiceSpecValue(serviceSpec: ServiceSpec)
    | ServiceStatusValue(serviceStatus: ServiceStatus)
    | IngressSpecValue(ingressSpec: IngressSpec)
    | IngressStatusValue(ingressStatus: IngressStatus)
    | HpaSpecValue(hpaSpec: HpaSpec)
    | HpaStatusValue(hpaStatus: HpaStatus)

  /** `reflect.DeepEqual`: values of different types are never deeply equal,
      values of one type are deeply equal exactly when they are structurally
      equal. */
  predicate DeepEqual(a: Value, b: Value)
  {
    a == b
  }

  /** A child object: the controller reference set by
      `ctrl.SetControllerReference`, the spec, and the status. */
  datatype Obj<S, T> = Obj(controller: Option<NamespacedName>, spec: S, status: T)

  /** The live objects of one kind, by identity. */
  type Store<S, T> = map<NamespacedName, Obj<S, T>>

  /** A store after a write, and the error the write returned. */
  datatype Written<S, T> = Written(store: Store<S, T>, err: Option<Error>)

  /** `client.Get`: an injected fault wins; otherwise the object, or
      `NotFound` when there is none. */
  function Get<S, T>(store: Store<S, T>, key: NamespacedName, fault: Option<Error>): Result<Obj<S, T>>
  {
    if fault.Some? then Err(fault.value)
    else if key in store then Ok(store[key])
    else Err(NotFound)
  }

  /** `client.Create`. */
  function Create<S, T>(store: Store<S, T>, key: NamespacedName, obj: Obj<S, T>, fault: Option<Error>): Written<S, T>
  {
    if fault.Some? then Written(store, fault)
    else if key in store then Written(store, Some(AlreadyExists))
    else Written(store[key := obj], None)
  }

  /** `client.Update` on the main resource: the spec and the controller
      reference are replaced; the status, which lives in the status
      subresource, is kept. */
  function Update<S, T>(store: Store<S, T>, key: NamespacedName, obj: Obj<S, T>, fault: Option<Error>): Written<S, T>
  {
    if fault.Some? then Written(store, fault)
    else if key !in store then Written(store, Some(NotFound))
    else Written(store[key := store[key].(controller := obj.controller, spec := obj.spec)], None)
  }

  /** `client.Delete`. */
  function Delete<S, T>(store: Store<S, T>, key: NamespacedName, fault: Option<Error>): Written<S, T>
  {
    if fault.Some? then Written(store, fault)
    else if key !in store then Written(store, Some(NotFound))
    else Written(store - {key}, None)
  }
}

=== FILE: service.dfy ===
/** The network-service reconciler: creates the App's service when it is
    missing and overwrites its spec when it drifts from the template. It has
    no delete path. The App's `status.serviceSpec` mirror is written only when
    the spec was overwritten, and it receives the spec the service had before
    the overwrite. */
module ServiceReconciler {
  import opened Kube
  import opened AppTypes
  import opened Base
  import opened Client

  /** `utils.NewService(app)` with the App set as controller. */
  function DesiredService(app: App, build: Builder): Service
  {
    Own(build.service(Key(app), app.spec), app)
  }

  /** The branch taken when the service exists. */
  function SyncService(app: App, c: Cluster, key: NamespacedName, desired: Service, live: Service, f: Faults): (s: Step)
    requires key in c.services && c.services[key] == live
    ensures Consistent(s) && |s.writes| <= 2
    // equal specs: no update and no status write, however stale the mirror
    ensures live.spec == desired.spec ==> s == Step(app, c, [], Done, None)
    ensures live.spec != desired.spec ==> |s.writes| > 0 && s.writes[0] == Update(key, ServiceObject(desired))
    ensures live.spec != desired.spec && f.write.Some? ==>
      s == Step(app, c, [Update(key, ServiceObject(desired))], RetryLater, f.write)
    // after a successful update the mirror receives the spec read before it
    ensures live.spec != desired.spec && f.write.None? ==>
      && s.app == app.(status := app.status.(serviceSpec := live.spec))
      && s.writes == [Update(key, ServiceObject(desired)), UpdateStatus(Key(app), s.app.status)]
    ensures s.err.None? ==> key in s.cluster.services && s.cluster.services[key].spec == desired.spec
  {
    if !DeepEqual(ServiceSpecValue(live.spec), ServiceSpecValue(desired.spec)) then
      var w := Update(key, ServiceObject(desired));
      var p := Perform(c, w, f.write);
      if p.err.Some? then Step(app, p.cluster, [w], RetryLater, p.err)
      else PersistStatus(app.(status := app.status.(serviceSpec := live.spec)), p.cluster, [w], f.status)
    else Step(app, c, [], Done, None)
  }

  /** `reconcileService`. */
  function ReconcileService(app: App, c: Cluster, build: Builder, f: Faults): (s: Step)
    ensures Consistent(s) && |s.writes| <= 2
    // no branch deletes anything
    ensures forall w <- s.writes :: !w.Delete?
    ensures f.owner.Some? ==> s == Step(app, c, [], RetryLater, f.owner)
    ensures s.err.None? ==>
      var key := ChildKey(app, ServiceSuffix);
      key in s.cluster.services && s.cluster.services[key].spec == DesiredService(app, build).spec
  {
    var key := ChildKey(app, ServiceSuffix);
    var desired := DesiredService(app, build);
    if f.owner.Some? then Step(app, c, [], RetryLater, f.owner)
    else match Get(c.services, key, f.get)
      case Ok(live) => SyncService(app, c, key, desired, live, f)
      case Err(e) =>
        if e != NotFound then Step(app, c, [], RetryLater, Some(e))
        else
          var w := Create(key, ServiceObject(desired));
          var p := Perform(c, w, f.write);
          Step(app, p.cluster, [w], if p.err.Some? then RetryLater else Done, p.err)
  }

  /** A failed Get other than NotFound returns the error with nothing written. */
  lemma ServiceGetFails(app: App, c: Cluster, build: Builder, f: Faults)
    requires f.owner.None? && f.get.Some? && f.get.value != NotFound
    ensures ReconcileService(app, c, build, f) == Step(app, c, [], RetryLater, f.get)
  {
  }

  /** A missing service is created from the template, once; on success the
      pass reports no error. */
  lemma ServiceMissing(app: App, c: Cluster, build: Builder, f: Faults)
    requires f.owner.None?
    requires Get(c.services, ChildKey(app, ServiceSuffix), f.get) == Err(NotFound)
    ensures var s := ReconcileService(app, c, build, f);
      var key, desired := ChildKey(app, ServiceSuffix), DesiredService(app, build);
      && s.app == app
      && s.writes == [Create(key, ServiceObject(desired))]
      && (s.err.None? ==> s.cluster.services == c.services[key := desired] && s.result == Done)
  {
  }

  /** An existing service goes through the sync branch. */
  lemma ServiceFound(app: App, c: Cluster, build: Builder, f: Faults)
    requires f.owner.None? && f.get.None? && ChildKey(app, ServiceSuffix) in c.services
    ensures var key := ChildKey(app, ServiceSuffix);
      ReconcileService(app, c, build, f) == SyncService(app, c, key, DesiredService(app, build), c.services[key], f)
  {
  }

  /** What a pass may change: only its own kind and the App status are
      written, children carry the App as controller, other kinds are
      untouched, and of the App only the service mirror can change. */
  ghost predicate ServiceFramed(app: App, c: Cluster, s: Step)
  {
    && (forall w <- s.writes :: Touches(w, ServiceKind) || w == UpdateStatus(Key(app), s.app.status))
    && (forall w <- s.writes :: (w.Create? || w.Update?) ==>
          w.obj.ServiceObject? && w.obj.service.controller == Some(Key(app)))
    && (forall k :: k != ServiceKind ==> KindUnchanged(c, s.cluster, k))
    && s.app.meta == app.meta && s.app.spec == app.spec
    && s.app.status.(serviceSpec := app.status.serviceSpec) == app.status
  }

  lemma SyncServiceFrame(app: App, c: Cluster, key: NamespacedName, desired: Service, live: Service, f: Faults)
    requires key in c.services && c.services[key] == live
    requires desired.controller == Some(Key(app))
    ensures ServiceFramed(app, c, SyncService(app, c, key, desired, live, f))
  {
    var s := SyncService(app, c, key, desired, live, f);
    var w := Update(key, ServiceObject(desired));
    if live.spec != desired.spec && f.write.None? {
      var c' := Perform(c, w, None).cluster;
      assert c' == c.(services := c'.services);
      var app' := app.(status := app.status.(serviceSpec := live.spec));
      assert s == PersistStatus(app', c', [w], f.status);
    }
  }

  lemma ServiceFrame(app: App, c: Cluster, build: Builder, f: Faults)
    ensures ServiceFramed(app, c, ReconcileService(app, c, build, f))
  {
    var key := ChildKey(app, ServiceSuffix);
    if f.owner.None? && f.get.None? && key in c.services {
      ServiceFound(app, c, build, f);
      SyncServiceFrame(app, c, key, DesiredService(app, build), c.services[key], f);
    }
  }

  /** The mirror lags: after a pass that overwrote the spec and persisted the
      status, the App's stored mirror holds the old spec, which differs from
      the spec the service now has. */
  lemma ServiceMirrorLags(app: App, c: Cluster, build: Builder)
    requires Key(app) in c.apps
    requires var key := ChildKey(app, ServiceSuffix);
      key in c.services && c.services[key].spec != DesiredService(app, build).spec
    ensures var s := ReconcileService(app, c, build, NoFaults);
      var key := ChildKey(app, ServiceSuffix);
      && s.err.None?
      && s.cluster.apps[Key(app)].status.serviceSpec == c.services[key].spec
      && s.cluster.apps[Key(app)].status.serviceSpec != s.cluster.services[key].spec
  {
    ServiceFound(app, c, build, NoFaults);
  }

  /** Idempotence: once the spec is converged, a pass whose owner step and
      Get succeed writes nothing. */
  lemma ServiceIdempotent(app: App, c: Cluster, build: Builder, f: Faults)
    requires f.owner.None? && f.get.None?
    requires var key := ChildKey(app, ServiceSuffix);
      key in c.services && c.services[key].spec == DesiredService(app, build).spec
    ensures ReconcileService(app, c, build, f) == Step(app, c, [], Done, None)
  {
    ServiceFound(app, c, build, f);
  }

  /** The cluster changes by exactly the writes the pass logs. */
  lemma ServiceLogAccountsFor(app: App, c: Cluster, build: Builder, f: Faults)
    ensures LogAccountsFor(c, ReconcileService(app, c, build, f))
  {
    var key := ChildKey(app, ServiceSuffix);
    var desired := DesiredService(app, build);
    var s := ReconcileService(app, c, build, f);
    if f.owner.None? {
      match Get(c.services, key, f.get)
      case Ok(live) =>
        if live.spec != desired.spec {
          var w := Update(key, ServiceObject(desired));
          var c' := Perform(c, w, None).cluster;
          ReplayOne(c, w);
          if f.write.None? {
            var app' := app.(status := app.status.(serviceSpec := live.spec));
            var u := UpdateStatus(Key(app'), app'.status);
            assert s.writes == [w, u] && s.writes[..1] == [w];
            ReplayTwo(c, w, u);
            if f.status.Some? {
              assert s.cluster == c';
            } else {
              assert s.cluster == Perform(c', u, None).cluster;
            }
          }
        }
      case Err(e) =>
        if e == NotFound {
          ReplayOne(c, Create(key, ServiceObject(desired)));
        }
    }
  }
}

=== FILE: webhook.dfy ===
/** The App admission webhooks: the mutating defaulter and the validator
    that runs on create and update. */
module Webhook {
  import opened Kube
  import opened AppTypes

  /** The admission answer: warnings shown to the client and, when the
      request is refused, the error. The validator never emits warnings. */
  datatype Admission = Admission(warnings: seq<string>, err: Option<Error>)
  {
    predicate Allowed()
    {
      err.None?
    }
  }

  const NodePortConflict := "ingress enabled ,but service nodeport is set."
  const IngressEnabled := "ingress enabled ,but ingress is set."

  /** The only annotation a defaulted App carries. */
  const DefaultAnnotationKey := "aloys"
  const DefaultAnnotations := map[DefaultAnnotationKey := "aloys"]

  /** The shared check behind create and update. Any App with the ingress
      enabled is refused: with a node port set it names the conflict, and
      without one it still refuses, so no admitted App ever enables the
      ingress. Nothing else in the App is looked at. */
  function ValidateApp(app: App): (a: Admission)
    ensures a.warnings == []
    ensures a.Allowed() <==> !app.spec.ingress.isEnable
    ensures !a.Allowed() && app.spec.service.nodePort != 0 ==> a.err == Some(Failure(NodePortConflict))
    ensures !a.Allowed() && app.spec.service.nodePort == 0 ==> a.err == Some(Failure(IngressEnabled))
  {
    if app.spec.ingress.isEnable && app.spec.service.nodePort != 0 then
      Admission([], Some(Failure(NodePortConflict)))
    else if app.spec.ingress.isEnable then
      Admission([], Some(Failure(IngressEnabled)))
    else
      Admission([], None)
  }

  function ValidateCreate(app: App): (a: Admission)
    ensures a.Allowed() <==> !app.spec.ingress.isEnable
  {
    ValidateApp(app)
  }

  /** Update validation ignores the previous object entirely. */
  function ValidateUpdate(app: App, previous: App): (a: Admission)
    ensures a.Allowed() <==> !app.spec.ingress.isEnable
  {
    ValidateApp(app)
  }

  /** Deletion is always admitted. */
  function ValidateDelete(app: App): (a: Admission)
    ensures a.Allowed() && a.warnings == []
  {
    Admission([], None)
  }

  /** The verdict on an update does not depend on what the App was before:
      it is the verdict the same App would get on creation. */
  lemma ValidateUpdateIgnoresOld(app: App, previous: App, previous': App)
    ensures ValidateUpdate(app, previous) == ValidateUpdate(app, previous') == ValidateCreate(app)
  {
  }

  /** The verdict depends only on the ingress switch and the node port:
      two Apps that agree on those two fields get the same answer, whatever
      their names, images, replica counts, hosts, paths or statuses. */
  lemma ValidateAppDependsOnlyOnSwitches(a: App, b: App)
    requires a.spec.ingress.isEnable == b.spec.ingress.isEnable
    requires a.spec.service.nodePort == b.spec.service.nodePort
    ensures ValidateApp(a) == ValidateApp(b)
  {
  }

  /** The defaulter replaces whatever annotations the App carried by the
      single default annotation and leaves everything else alone. */
  function Default(app: App): (r: App)
    ensures r.meta.annotations.Keys == {DefaultAnnotationKey}
    ensures r.meta.annotations[DefaultAnnotationKey] == "aloys"
    ensures Key(r) == Key(app) && r.meta.resourceVersion == app.meta.resourceVersion
    ensures r.spec == app.spec && r.status == app.status
  {
    app.(meta := app.meta.(annotations := DefaultAnnotations))
  }

  /** Defaulting twice is defaulting once. */
  lemma DefaultIdempotent(app: App)
    ensures Default(Default(app)) == Default(app)
  {
  }

  /** Defaulting never changes the validator's verdict, so the order in
      which the two webhooks run does not matter. */
  lemma DefaultPreservesVerdict(app: App)
    ensures ValidateApp(Default(app)) == ValidateApp(app)
  {
  }

  /** Two Apps that differ only in their annotations default to the same App. */
  lemma DefaultForgetsAnnotations(a: App, b: App)
    requires a.meta.(annotations := b.meta.annotations) == b.meta
    requires a.spec == b.spec && a.status == b.status
    ensures Default(a) == Default(b)
  {
  }
}
